=== FILE: README.md ===
# Launcher backend core, modelled in Dafny

This project models four pieces of the launcher's Rust backend and proves
properties of them:

- **The account manager** (`crates/carbon_app/src/managers/account/mod.rs`). It keeps the
  `account` table, the active account, the token refreshes in flight and the
  one Microsoft login ("enrollment") in progress. It loads table rows into
  full accounts and derives each account's status (Ok, Expired, Refreshing,
  Invalid). It also runs the two background loops of the refresh service:
  the status check of the least recently checked account, and the token
  refresh of the first account whose token expires within twelve hours.
  These are in `accounts.dfy` (module `Accounts`) and
  `refresh_service.dfy` (module `RefreshService`).
- **The download core of the networking crate** (`crates/carbon_net/src/lib.rs`).
  It covers:
  - the `Downloadable` record and its builders;
  - the single-file download with its size and checksum checks and progress reports;
  - the batch download's per-file decision: keep the file on disk, report it missing, or fetch it;
  - the shared progress counters;
  - the aggregation of the batch's results.

  This is `download.dfy` (module `Download`).
- **The instance-import endpoints** (`crates/carbon_app/src/api/instance/import.rs`).
  These are the frontend's entity enum and its two conversions to and from the
  importer's enum, and the scan, list and import endpoints, which only support
  the legacy launcher. This is `import.dfy`: module `Importer` has the importer's
  two types, and module `Import` has the endpoints.
- **The process reaper** (`crates/carbon_app/src/reaper.rs`). On Unix it
  sends SIGTERM. On Windows it is a helper process that attaches to the child's
  console and closes its window. Its exit code tells how far it got, and
  the parent decodes it. This is `reaper.dfy` (module `Reaper`).

`wrappers.dfy` (module `Wrappers`) holds `Option`, `Result` and `Outcome`
(a `Result` without a value).

The model has no clock, database, network, filesystem or hashing. Each of these
becomes an input:
- the current time is `now`, in integer seconds;
- the table is a map from uuid to row;
- an HTTP response is a status code and a sequence of body chunks;
- a file on disk is a `LocalFile`;
- hashing is a `digest` function parameter;
- the profile API's answer, the enrollment task's status, the importer's
  results and the console calls' results are all parameters.

Operations that change state return the next state together with their outcome.
Some operations change state before they fail, and this return shape captures that.

## Model

| member | source | states |
|---|---|---|
| Accounts.LoadAccount | crates/carbon_app/src/managers/account/mod.rs:883-908 | A row with an access token loads as a Microsoft account carrying every token column, and fails with MissingExpiration exactly when its expiry is absent. A row without one loads as Offline, whatever its other columns hold. |
| Accounts.WithStatus | crates/carbon_app/src/managers/account/mod.rs:910-948 | A Microsoft account missing its refresh or id token is Invalid. Otherwise it is Expired exactly when now is past its expiry, else Ok with its access token. Offline is Ok without a token. The derived status is never Refreshing, and the identity fields are carried over. |
| Accounts.StatusCarriesTokenIff | crates/carbon_app/src/managers/account/mod.rs:926-945 | The status is Ok with token t if and only if the account is Microsoft, has both tokens, is not past its expiry, and t is its own access token. |
| Accounts.ExpiryIsPermanent | crates/carbon_app/src/managers/account/mod.rs:938-943 | An account that reads Expired at some time reads Expired at every later time. |
| Accounts.FromApi | crates/carbon_app/src/managers/account/mod.rs:950-965 | A freshly logged-in account is Microsoft, holds both tokens and the API's expiry and skin, and was last used now. |
| Accounts.SetActiveUuid | crates/carbon_app/src/managers/account/mod.rs:67-96 | Setting the active uuid succeeds exactly when it is unset or names a stored account. On failure nothing changes and the error names the uuid. |
| Accounts.GetActiveAccount | crates/carbon_app/src/managers/account/mod.rs:101-118 | No active uuid gives no account. An active uuid without a row is an error. Otherwise the result is the loaded row or its load error. |
| Accounts.ActiveAccountReadable | crates/carbon_app/src/managers/account/mod.rs:80-84 | While the active uuid names a stored account, reading the active account never hits the missing-row error, and the account it returns has the active uuid. |
| Accounts.ListAccount | crates/carbon_app/src/managers/account/mod.rs:138-151 | A listed row is Microsoft if and only if it holds an access token. Uuid, name, last use and stored skin are carried over. |
| Accounts.AccountList | crates/carbon_app/src/managers/account/mod.rs:133-153 | The list has one entry per listed row, in the listing's order, each entry being that row as listed. |
| Accounts.AccountListIsTable | crates/carbon_app/src/managers/account/mod.rs:120-153 | Over a listing of the table, the list names every stored account exactly once, with its stored name, and last use never increases along it. |
| Accounts.ListAgreesWithStatus | crates/carbon_app/src/managers/account/mod.rs:133-153 | For a row that loads, the list entry equals the status view's account, except for an Offline row's skin. |
| Accounts.GetAccount | crates/carbon_app/src/managers/account/mod.rs:155-173 | An unknown uuid gives none. The only failure is a row that does not load, reported with its load error. Otherwise the result is the loaded account with its derived status. |
| Accounts.GetAccountStatus | crates/carbon_app/src/managers/account/mod.rs:155-193 | An unknown uuid gives none. A badly formed row is the only failure. The account reads Refreshing if and only if it is a stored Microsoft account with a refresh running. Otherwise it reads its derived status. |
| Accounts.OfflineNeverRefreshing | crates/carbon_app/src/managers/account/mod.rs:180-190 | An Offline account reads Ok without a token even while a refresh for its uuid is registered. |
| Accounts.AddAccount | crates/carbon_app/src/managers/account/mod.rs:196-286 | Upsert on uuid: only that row changes. An existing row keeps last_used, a new one is last used now, and an Offline account's access and refresh token columns and its expiry are cleared. An existing Offline row keeps its id token and skin, and a new one is created without them. Well-formedness and validity of the active uuid are preserved. |
| Accounts.LoadAfterAddAccount | crates/carbon_app/src/managers/account/mod.rs:196-286 | Loading the row the upsert wrote gives back the account, with last_used as kept or set. |
| Accounts.MostRecentlyUsed | crates/carbon_app/src/managers/account/mod.rs:419-427 | The first row by last_used descending is absent only for an empty table, and no row was used later than it. |
| Accounts.DeleteAccount | crates/carbon_app/src/managers/account/mod.rs:407-458 | As written: the row is removed, and the delete fails with AccountDoesNotExist exactly when the row is absent. When the deleted account is the active one, the active uuid first moves to the most recently used row of the whole table. |
| Accounts.DeleteActiveCanDangle | crates/carbon_app/src/managers/account/mod.rs:417-431 | Deleting the active account when it is also the most recently used one leaves the active uuid naming the deleted account. |
| Accounts.DeleteAccountFixed | crates/carbon_app/src/managers/account/mod.rs:407-458 | As intended: the replacement is chosen among the remaining rows, so a valid active uuid stays valid. |
| Accounts.RefreshAccount | crates/carbon_app/src/managers/account/mod.rs:288-405 | Errors come in the source's order: NoAccount, then NoRefreshToken, then AlreadyRefreshing, then a load error. Success registers the loaded snapshot under the uuid and changes nothing else. A failure changes nothing. |
| Accounts.RefreshShowsRefreshing | crates/carbon_app/src/managers/account/mod.rs:399-402 | After a refresh starts, a Microsoft account reads Refreshing. |
| Accounts.Invalidated | crates/carbon_app/src/managers/account/mod.rs:364-375 | The snapshot rewritten by a validity failure keeps its uuid and loses both its refresh and id tokens. |
| Accounts.FinishRefresh | crates/carbon_app/src/managers/account/mod.rs:320-387 | The refresh is deregistered exactly on completion, or on failure of a Microsoft snapshot. Completion upserts the new account. A validity failure upserts the snapshot with both tokens dropped. Any other failure, or an unfinished task, leaves the table alone. A failure with an Offline snapshot, and an unfinished task, change nothing at all. Well-formedness and validity of the active uuid are preserved. |
| Accounts.ValidityFailureInvalidates | crates/carbon_app/src/managers/account/mod.rs:358-375 | After a refresh fails for account validity, the account reads Invalid. |
| Accounts.BeginEnrollment | crates/carbon_app/src/managers/account/mod.rs:460-489 | Beginning fails with InProgress while an enrollment exists and otherwise installs a new one. |
| Accounts.CancelEnrollment | crates/carbon_app/src/managers/account/mod.rs:491-501 | Cancelling always clears the enrollment, and fails with NotActive exactly when there was none. |
| Accounts.GetEnrollmentStatus | crates/carbon_app/src/managers/account/mod.rs:503-511 | There is a status exactly when an enrollment is in progress, and it is that enrollment's. |
| Accounts.EnrollmentLifecycle | crates/carbon_app/src/managers/account/mod.rs:460-511 | A begun enrollment reads RequestingCode and blocks a second begin. A cancel clears it, and a new begin then succeeds. |
| Accounts.FinalizeEnrollment | crates/carbon_app/src/managers/account/mod.rs:513-535 | The enrollment is always taken. If none existed, finalizing fails with NotActive. If it was not complete, it fails with NotComplete. A complete one upserts the account and makes it the active one. Validity of the active uuid is preserved. |
| Accounts.RefreshAccountStatus | crates/carbon_app/src/managers/account/mod.rs:546-633 | A missing or badly formed account is an error. An account not Ok with a token is left alone. A profile overwrites username and skin. A rejected token sets the expiry to now. A missing game profile or a failed request is an error and changes nothing. The table's keys and the other state never change. |
| Accounts.OfflineNeverChecked | crates/carbon_app/src/managers/account/mod.rs:565-574 | An Offline account is never sent to the profile endpoint and nothing changes. |
| Accounts.RejectedTokenExpires | crates/carbon_app/src/managers/account/mod.rs:586-602 | After the profile endpoint rejects the token, the account reads Expired at every later time while no refresh is running. |
| RefreshService.Reconcile | crates/carbon_app/src/managers/account/mod.rs:673-694 | The reconciled times are kept for exactly the listed accounts holding an access token. A surviving time is kept and a new account starts at now. |
| RefreshService.TrackedIsStoredWithToken | crates/carbon_app/src/managers/account/mod.rs:673-694 | Over a full listing, the tracked accounts are exactly the stored accounts with an access token. |
| RefreshService.LeastRecentlyChecked | crates/carbon_app/src/managers/account/mod.rs:696-699 | The chosen account is tracked and has the smallest time among the given accounts. Nothing is chosen exactly when none of them is tracked. |
| RefreshService.StatusCheckPass | crates/carbon_app/src/managers/account/mod.rs:647-717 | One pass checks an account exactly when some account is tracked. The checked account has the least last-checked time and is stamped now. Every other tracked account keeps its reconciled time. |
| RefreshService.FirstDue | crates/carbon_app/src/managers/account/mod.rs:726-755 | The index found is due for refresh, and no earlier row is. None is found exactly when no row is due. |
| RefreshService.TokenRefreshPass | crates/carbon_app/src/managers/account/mod.rs:720-761 | As written: a pass with no due row changes nothing. Otherwise it registers at most one refresh, for a due row, and leaves the table, active uuid and enrollment alone. |
| RefreshService.FirstDueIsRefreshed | crates/carbon_app/src/managers/account/mod.rs:726-754 | Over a full listing, when the first due row holds a refresh token and is not refreshing already, the pass starts its refresh with its loaded snapshot. |
| RefreshService.FirstDueBlocks | crates/carbon_app/src/managers/account/mod.rs:743-754 | When the first due row has no refresh token or is refreshing already, the pass fails and changes nothing, whatever rows follow. |
| RefreshService.InvalidRowStallsRefresh | crates/carbon_app/src/managers/account/mod.rs:726-754 | A table where an account without a refresh token, past its expiry, is listed ahead of a refreshable due account: the pass ends with NoRefreshToken and changes nothing at every time past both expiries. |
| RefreshService.FirstRefreshable | crates/carbon_app/src/managers/account/mod.rs:726-754 | The index found is due and holds a refresh token, and no earlier row does. None is found exactly when no row does. |
| RefreshService.TokenRefreshPassFixed | crates/carbon_app/src/managers/account/mod.rs:720-761 | As intended: rows without a refresh token are skipped. The pass changes nothing when no row can be refreshed. Otherwise it registers at most one refresh, for a refreshable row. |
| RefreshService.FixedPassRefreshesWhenPossible | crates/carbon_app/src/managers/account/mod.rs:726-754 | Over a full listing, when some due account holds a refresh token and none of those is refreshing, the corrected pass starts a refresh for the first of them. |
| RefreshService.FixedPassUnstalls | crates/carbon_app/src/managers/account/mod.rs:726-754 | On the stalled table, the corrected pass refreshes the account that the pass as written never reaches. |
| RefreshService.RefreshOnlyWhenDue | crates/carbon_app/src/managers/account/mod.rs:737-755 | Over a full listing, a refresh the pass starts is for a stored account whose token expires within twelve hours. |
| Download.NewDownloadable | crates/carbon_net/src/lib.rs:58-65 | A new record has the given url and path and neither checksum nor size. |
| Download.WithChecksum | crates/carbon_net/src/lib.rs:67-70 | Sets the checksum and leaves the other fields alone. |
| Download.WithSize | crates/carbon_net/src/lib.rs:72-75 | Sets the size and leaves the other fields alone. |
| Download.BuildersCommute | crates/carbon_net/src/lib.rs:57-76 | The two builders commute, and together they fill in both fields. |
| Download.Verify | crates/carbon_net/src/lib.rs:141-199 | A body is accepted exactly when its size and checksum match, each only when given. A size mismatch is reported first, with the expected and actual lengths. A checksum mismatch carries the computed digest, url and path. |
| Download.DownloadFile | crates/carbon_net/src/lib.rs:94-212 | A non-success status fails at once with no report. Otherwise there is one report per chunk with the bytes received so far, and the current sizes never decrease. A final report with count 1 comes exactly when the checks pass. |
| Download.FileLooksGood | crates/carbon_net/src/lib.rs:260-271 | A file looks good exactly when it is present and, when a size is given, its metadata length equals that size. |
| Download.Decide | crates/carbon_net/src/lib.rs:273-375 | A good-looking file is kept without a deep check. With a deep check it is kept as verified when its digest matches, and fetched otherwise. A missing file is reported with skip_download and fetched without it. Reading a file can fail with an I/O error. |
| Download.KeepOnlyWhatLooksGood | crates/carbon_net/src/lib.rs:273-372 | Only a good-looking file is kept. One is kept as verified only under a deep check whose digest matches. A good-looking, readable file under a deep check without a checksum is fetched, even with skip_download. |
| Download.KeepCreditAsWritten | crates/carbon_net/src/lib.rs:292-298 | As written: the credit of a verified kept file is its unwrapped size, which fails exactly when the size is absent. |
| Download.UnknownSizeKeepPanics | crates/carbon_net/src/lib.rs:260-298 | A present file of unknown size whose digest matches is kept as verified, and its credit then unwraps an absent size. |
| Download.KeepCredit | crates/carbon_net/src/lib.rs:292-298 | As intended: the credit agrees with the size wherever the source does not panic, and is the file's length when the size is unknown. |
| Download.KeepCreditIsLengthOnDisk | crates/carbon_net/src/lib.rs:260-298 | For a verified kept file whose metadata agrees with its contents, the credit is its length on disk. |
| Download.TrackChunks | crates/carbon_net/src/lib.rs:377-434 | After the chunks, the counter has grown by the bytes received. The reported size is the larger of the announced size and the bytes received, and the total has grown by exactly the overshoot. Each tick's counter and total never decrease. |
| Download.FinishAsWritten | crates/carbon_net/src/lib.rs:436-437 | As written: the shortfall is subtracted from the counter, with u64 wrap-around. |
| Download.ShortBodyCorrectionWraps | crates/carbon_net/src/lib.rs:377-437 | For a lone file announced at 10 bytes with a 4-byte body, the correction wraps the counter to 2^64 - 2 instead of 10. |
| Download.Finish | crates/carbon_net/src/lib.rs:436-437 | As intended: the counter ends up crediting the file with exactly its reported size. |
| Download.FetchResult | crates/carbon_net/src/lib.rs:380-509 | A batch fetch succeeds, needing a download, exactly when the status is a success and the checksum, if given, matches. A non-success status is reported with the file, and a rejected checksum as a mismatch with the expected and actual digests, the url and the path. |
| Download.BatchFetchIgnoresSize | crates/carbon_net/src/lib.rs:377-509 | A batch fetch accepts a body of the wrong length when the checksum matches, where a single download rejects it. |
| Download.FetchFile | crates/carbon_net/src/lib.rs:377-509 | With the corrected final correction: a non-success status leaves the counters alone. Otherwise the total grows by the overshoot and the counter by the announced size plus that overshoot. |
| Download.TaskResult | crates/carbon_net/src/lib.rs:252-510 | With the corrected credit of a kept file: a task yields false exactly when the file is kept. A missing file reported under skip_download yields true. A fetch yields the fetch's result, and an I/O error is passed on. |
| Download.RunTask | crates/carbon_net/src/lib.rs:252-510 | With the corrected credit and final correction: a task never lowers the counters, and only a fetch grows the total size. A verified kept file adds its credit to the counter. A fetch with a success status grows the total by the overshoot of the received bytes over the announced size, and the counter by the announced size plus that overshoot. A fetch with any other status changes neither. Every other outcome leaves the counter alone. |
| Download.Aggregate | crates/carbon_net/src/lib.rs:515-528 | The batch fails exactly when some task failed, with the first failure in input order. Otherwise it needs a download exactly when some task does. |
| Download.DownloadMultiple | crates/carbon_net/src/lib.rs:215-529 | With the corrected tasks: the totals start at the file count and the sum of known sizes; the running counters of each task are stated by RunTask. The result is the first failing task's error in input order, otherwise whether any task needs a download. |
| Import.ToImporterEntity | crates/carbon_app/src/api/instance/import.rs:29-44 | The conversion keeps the variant, and path payloads become paths. |
| Import.ToFEEntity | crates/carbon_app/src/api/instance/import.rs:46-61 | The conversion keeps the variant, and paths are read back as strings. |
| Import.FERoundTrip | crates/carbon_app/src/api/instance/import.rs:29-61 | Frontend entity to importer entity and back is the identity. |
| Import.ImporterRoundTrip | crates/carbon_app/src/api/instance/import.rs:29-61 | Importer entity to frontend entity and back is the identity, for importer paths that are valid UTF-8. |
| Import.ToFEImportableInstance | crates/carbon_app/src/api/instance/import.rs:69-75 | The instance's name is carried over. |
| Import.ScanImportableInstances | crates/carbon_app/src/api/instance/import.rs:85-93 | Only the legacy launcher is scanned, and its scan's success or failure is passed on. Every other entity is unsupported. |
| Import.GetImportableInstances | crates/carbon_app/src/api/instance/import.rs:95-110 | For the legacy launcher, the found instances are returned by name, one for one and in order, and a failure is passed on. Every other entity is unsupported. |
| Import.ImportInstance | crates/carbon_app/src/api/instance/import.rs:112-127 | For the legacy launcher, the import's task id or failure is passed on, with the request's index and name. Every other entity is unsupported. |
| Import.OnlyLegacySupported | crates/carbon_app/src/api/instance/import.rs:85-127 | For every entity but the legacy launcher, all three endpoints fail as unsupported, whatever the importer would answer. |
| Reaper.ExitCodesDistinct | crates/carbon_app/src/reaper.rs:46-50 | The five exit codes are distinct. |
| Reaper.KillTarget | crates/carbon_app/src/reaper.rs:6 | The pid cast to i32 is in range, is unchanged below 2^31, and wraps to a negative value above. |
| Reaper.StopProcessUnix | crates/carbon_app/src/reaper.rs:5-13 | Stopping fails exactly when kill, given the pid cast to i32, returns -1; a pid below 2^31 reaches kill unchanged. |
| Reaper.RunReaper | crates/carbon_app/src/reaper.rs:55-87 | The reaper makes its console calls in order and exits at the first failure with that failure's code. It reaches CloseWindow only when every earlier call succeeded, and exits 0 exactly when the window closed. |
| Reaper.ReaperStopsAtFirstFailure | crates/carbon_app/src/reaper.rs:59-86 | A failed attach makes no further call, and a missing window leaves the handler alone. CloseWindow is called exactly when attach, window and handler all succeeded. |
| Reaper.DecodeExitCode | crates/carbon_app/src/reaper.rs:30-37 | Only 0 is success. Each of the four failure codes maps to its own error, and any other code is reported as unexpected. |
| Reaper.DecodeIsInjective | crates/carbon_app/src/reaper.rs:30-37 | Distinct exit codes decode to distinct results. |
| Reaper.StopProcessWindows | crates/carbon_app/src/reaper.rs:18-40 | A reaper that could not run is an error. Otherwise the result is its decoded exit code. |
| Reaper.StopProcessAgreesWithReaper | crates/carbon_app/src/reaper.rs:18-87 | Composed with the reaper, stopping succeeds exactly when every console call succeeded. Each failing call yields its own error, and no unexpected code arises. |

## Left out

- Database and query errors other than the named ones, and the settings
  store's errors: every database read and write succeeds in the model.
- HTTP, retries and the Microsoft login flow are left out. The enrollment
  task's progress between requesting the device code and completion is
  collapsed into one `Pending` status. That `begin_enrollment` starts in
  RequestingCode is the status the task begins with.
- Accounts.FinishRefresh: requires the uuid to be refreshing. The source
  panics (`expect`) when an invalidation arrives for a uuid without a
  registered refresh, and that panic is not modelled.
- The invalidator's `add_account` error on completion is logged and
  ignored. The model's upsert cannot fail.
- Frontend cache invalidations, tracing and logging have no effect on state
  and are left out.
- The 30-second sleeps of the refresh loops and the `refreshloop_sleep`
  lockout of `refresh_account_status` are timing only. `now` is a parameter.
- RefreshService.LeastRecentlyChecked: among accounts with equal times,
  the first in listing order wins. The source iterates a `HashMap`, so it
  leaves the choice among equals unspecified.
- Accounts.MostRecentlyUsed: the database breaks ties among equal
  `last_used` values, so the model leaves that choice open.
- Skin management, `get_head` and the skin manager are not part of this
  model.
- Download.FetchFile: uses the corrected final correction (`Finish`), so
  it does not model the source's wrapping subtraction of the shortfall.
  That behaviour is modelled apart, by `FinishAsWritten`.
- Download.TaskResult: credits a verified kept file with `KeepCredit`, so a
  file of unknown size succeeds where the source's task panics. That panic
  is modelled apart, by `KeepCreditAsWritten`.
- Download.RunTask: built from the corrected `KeepCredit` and `Finish`.
  Its "never lowers the counters" holds of the corrected program only; the
  source lowers the counter on a short body.
- Download.DownloadMultiple: runs the corrected tasks, so a batch the
  source fails through a panicking task (`task.await?`) succeeds here.
- The download's concurrency, semaphore and `tokio` tasks are left out.
  The tasks run one after another. Interleavings of the shared atomic
  counters, and so the exact values in progress reports, are not modelled.
- Progress-channel send errors and the parent-directory and file-open
  errors of a download are left out. Reading a file in a deep check can
  fail, as `Io`.
- Download.TrackChunks: counters are unbounded naturals. u64 overflow of
  the size sums is not modelled; only the final correction's wrap-around is
  written out.
- Download.DownloadFile: the body is written to disk and the file is
  truncated; neither is modelled. The bytes appear only as the buffer the
  checks run on.
- Hash functions are the `digest` parameter. Their output is taken to be
  the lower-case hex string the source compares against.
- The importer itself (`managers/instance/importer`) is not part of this
  model. Its legacy scan, listing and import are inputs.
- Import.ImporterRoundTrip: holds only for importer paths that are valid
  UTF-8. Paths are strings in this model, so a non-UTF-8 path, which
  `into_string_lossy` would alter, cannot be expressed.
- Importer.PathToStringLossy: the round trip through `PathBuf` and
  `into_string_lossy` is taken to be lossless, which holds for paths built
  from valid UTF-8 strings, as the frontend's always are.
- The reaper's process spawning, `current_exe` and the argument passing are
  left out. A reaper that could not be started is `None`. The Windows
  console API's effects beyond their success are not modelled.

## Findings

| source | as written | input that shows it | evidently intended | confidence | as-written member | corrected member |
|---|---|---|---|---|---|---|
| crates/carbon_net/src/lib.rs:296-298 | a verified kept file credits `file.size.unwrap()`, on the comment's claim that a good-looking file always has a size; but a file of unknown size looks good whenever it exists (line 270) | a present file with no size whose SHA-1 matches, under `deep_check`: the unwrap of `None` panics the task | credit the file's length when the size is unknown | high (not executed) | Download.KeepCreditAsWritten, Download.UnknownSizeKeepPanics | Download.KeepCredit, Download.KeepCreditIsLengthOnDisk |
| crates/carbon_net/src/lib.rs:436-437 | after a fetch, the shortfall `reported - downloaded` is subtracted from the shared counter with `fetch_sub` | one file announced at 10 bytes with a 4-byte body: the counter is 4, drops by 6 and wraps around 2^64 | add the shortfall, so that the file counts for exactly what it adds to the total size | medium (not executed) | Download.FinishAsWritten, Download.ShortBodyCorrectionWraps | Download.Finish |
| crates/carbon_app/src/managers/account/mod.rs:417-429 | deleting the active account moves the active uuid to the most recently used row before the row is deleted, so that row can be the deleted account itself | rows "a" (last used 2) and "b" (last used 1), "a" active: deleting "a" leaves the active uuid "a", which no longer exists | choose the replacement among the remaining rows, keeping the active uuid valid as `set_active_uuid` requires (lines 80-84) | high (not executed) | Accounts.DeleteAccount, Accounts.DeleteActiveCanDangle | Accounts.DeleteAccountFixed |
| crates/carbon_app/src/managers/account/mod.rs:743-754 | the token-refresh loop tries the first due account and then stops, whatever the outcome (`break`). A Microsoft account that has lost its refresh token stays due on every pass, since its expiry never moves | rows "a" (no refresh token, expired, last used 2) and "b" (refresh token, expired, last used 1): every pass fails with NoRefreshToken on "a", and "b" is never refreshed | skip accounts that cannot be refreshed, as the loop already skips badly formed and Offline rows (lines 728-735) | medium (not executed) | RefreshService.TokenRefreshPass, RefreshService.InvalidRowStallsRefresh | RefreshService.TokenRefreshPassFixed, RefreshService.FixedPassRefreshesWhenPossible |

=== FILE: accounts.dfy ===
/** The account manager of the launcher backend.

    Its state is the `account` table (a map keyed by uuid), the active
    account's uuid kept in the settings, the accounts whose tokens are being
    refreshed (each with the snapshot its invalidator holds) and the one
    Microsoft login ("enrollment") that may be in progress. The clock is the
    `now` parameter (integer seconds); the enrollment task's progress and the
    profile API's answers are inputs. */
module Accounts {
  import opened Wrappers

  type Uuid = string

  /** One row of the `account` table. */
  datatype AccountRow = AccountRow(
    uuid: Uuid,
    username: string,
    accessToken: Option<string>,
    msRefreshToken: Option<string>,
    idToken: Option<string>,
    tokenExpires: Option<int>,
    skinId: Option<string>,
    lastUsed: int)

  datatype FullAccountType =
    | Offline
    | Microsoft(
        accessToken: string,
        refreshToken: Option<string>,
        idToken: Option<string>,
        tokenExpires: int,
        skinId: Option<string>)

  datatype FullAccount = FullAccount(username: string, uuid: Uuid, kind: FullAccountType, lastUsed: int)

  datatype LoadError = MissingExpiration(uuid: Uuid)

  /** Loading a row. An access token makes it a Microsoft account, which then
      needs an expiry time; without an access token it is Offline whatever the
      other token columns hold. */
  function LoadAccount(row: AccountRow): (r: Result<FullAccount, LoadError>)
    ensures row.accessToken.None? ==> r == Success(FullAccount(row.username, row.uuid, Offline, row.lastUsed))
    ensures r.Failure? <==> row.accessToken.Some? && row.tokenExpires.None?
    ensures r.Failure? ==> r.error == MissingExpiration(row.uuid)
    ensures r.Success? ==>
      r.value.uuid == row.uuid && r.value.username == row.username && r.value.lastUsed == row.lastUsed
    ensures r.Success? && row.accessToken.Some? ==>
      && r.value.kind.Microsoft?
      && r.value.kind.accessToken == row.accessToken.value
      && r.value.kind.refreshToken == row.msRefreshToken
      && r.value.kind.idToken == row.idToken
      && r.value.kind.tokenExpires == row.tokenExpires.value
      && r.value.kind.skinId == row.skinId
  {
    match row.accessToken
    case None => Success(FullAccount(row.username, row.uuid, Offline, row.lastUsed))
    case Some(token) =>
      if row.tokenExpires.None? then Failure(MissingExpiration(row.uuid))
      else
        var kind := Microsoft(token, row.msRefreshToken, row.idToken, row.tokenExpires.value, row.skinId);
        Success(FullAccount(row.username, row.uuid, kind, row.lastUsed))
  }

  datatype AccountType = OfflineType | MicrosoftType

  datatype AccountStatus = Ok(accessToken: Option<string>) | Expired | Refreshing | Invalid

  /** The account as listed to the frontend. */
  datatype Account = Account(username: string, uuid: Uuid, lastUsed: int, kind: AccountType, skinId: Option<string>)

  datatype AccountWithStatus = AccountWithStatus(account: Account, status: AccountStatus)

  /** Status derivation: a Microsoft account lacking its refresh token or its
      id token needs a new login; otherwise it has expired strictly after its
      expiry time. `Refreshing` is never derived here, only overlaid by
      `GetAccountStatus`. */
  function WithStatus(acc: FullAccount, now: int): (r: AccountWithStatus)
    ensures r.account.uuid == acc.uuid && r.account.username == acc.username
    ensures r.account.lastUsed == acc.lastUsed
    ensures r.account.kind.OfflineType? <==> acc.kind.Offline?
    ensures r.status != Refreshing
    ensures acc.kind.Offline? ==> r.status == Ok(None) && r.account.skinId.None?
    ensures acc.kind.Microsoft? ==> r.account.skinId == acc.kind.skinId && r.status != Ok(None)
    ensures acc.kind.Microsoft? && (acc.kind.refreshToken.None? || acc.kind.idToken.None?) ==>
      r.status == Invalid
    ensures acc.kind.Microsoft? && acc.kind.refreshToken.Some? && acc.kind.idToken.Some? ==>
      && (r.status == Expired <==> now > acc.kind.tokenExpires)
      && (r.status != Expired ==> r.status == Ok(Some(acc.kind.accessToken)))
  {
    match acc.kind
    case Offline =>
      AccountWithStatus(Account(acc.username, acc.uuid, acc.lastUsed, OfflineType, None), Ok(None))
    case Microsoft(access, refresh, id, expires, skin) =>
      var status :=
        if refresh.None? || id.None? then Invalid
        else if now > expires then Expired
        else Ok(Some(access));
      AccountWithStatus(Account(acc.username, acc.uuid, acc.lastUsed, MicrosoftType, skin), status)
  }

  /** Only a Microsoft account with both tokens, not yet past its expiry,
      reads `Ok` with an access token, and that token is its own. */
  lemma StatusCarriesTokenIff(acc: FullAccount, now: int, token: string)
    ensures WithStatus(acc, now).status == Ok(Some(token)) <==>
      && acc.kind.Microsoft?
      && acc.kind.refreshToken.Some? && acc.kind.idToken.Some?
      && now <= acc.kind.tokenExpires
      && token == acc.kind.accessToken
  {
  }

  /** Expiry is permanent: once an account reads Expired, it reads Expired at
      every later time. */
  lemma ExpiryIsPermanent(acc: FullAccount, now: int, later: int)
    requires now <= later
    requires WithStatus(acc, now).status == Expired
    ensures WithStatus(acc, later).status == Expired
  {
  }

  /** The account returned by the Microsoft login flow. */
  datatype ApiAccount = ApiAccount(
    username: string,
    uuid: Uuid,
    accessToken: string,
    refreshToken: string,
    idToken: string,
    expiresAt: int,
    skinId: Option<string>)

  /** A freshly logged-in account always carries both tokens. */
  function FromApi(a: ApiAccount, now: int): (r: FullAccount)
    ensures r.uuid == a.uuid && r.username == a.username && r.lastUsed == now
    ensures r.kind.Microsoft? && r.kind.accessToken == a.accessToken
    ensures r.kind.refreshToken == Some(a.refreshToken) && r.kind.idToken == Some(a.idToken)
    ensures r.kind.tokenExpires == a.expiresAt && r.kind.skinId == a.skinId
  {
    FullAccount(a.username, a.uuid,
      Microsoft(a.accessToken, Some(a.refreshToken), Some(a.idToken), a.expiresAt, a.skinId), now)
  }

  /** How a failed login or refresh failed: the account itself is no longer
      valid (`Ok(_)` in the source), or anything else (`Err(_)`). */
  datatype EnrollmentFailure = AccountValidity | OtherFailure

  /** The status of an enrollment task. The steps between requesting the
      device code and completion are collapsed into `Pending`. */
  datatype EnrollmentStatus =
    | RequestingCode
    | Pending
    | Complete(account: ApiAccount)
    | Failed(failure: EnrollmentFailure)

  datatype AccountState = AccountState(
    store: map<Uuid, AccountRow>,
    active: Option<Uuid>,
    refreshing: map<Uuid, FullAccount>,
    enrollment: Option<EnrollmentStatus>)

  /** Rows and refresh snapshots are filed under their own uuid. */
  predicate WellFormed(s: AccountState) {
    && (forall k :: k in s.store ==> s.store[k].uuid == k)
    && (forall k :: k in s.refreshing ==> s.refreshing[k].uuid == k)
  }

  /** The active uuid, when set, names a stored account. */
  predicate ActiveValid(s: AccountState) {
    s.active.None? || s.active.value in s.store
  }

  datatype AccountError =
    | ActiveAccountDoesNotExist(uuid: Uuid)
    | DeletedAccountDoesNotExist(uuid: Uuid)
    | NoAccount
    | NoRefreshToken
    | AlreadyRefreshing
    | DbLoad(cause: LoadError)
    | EnrollmentInProgress
    | CancelNotActive
    | FinalizeNotActive
    | FinalizeNotComplete
    | AccountMissing(uuid: Uuid)
    | GameProfileMissing
    | ProfileRequestFailed
    | ActiveAccountUnreadable

  /** The state after an operation and whether the operation succeeded; some
      operations change the state before they fail. */
  datatype Step = Step(next: AccountState, outcome: Outcome<AccountError>)

  function SetActiveUuid(s: AccountState, uuid: Option<Uuid>): (r: Step)
    ensures r.outcome.Pass? <==> uuid.None? || uuid.value in s.store
    ensures r.outcome.Pass? ==> r.next == s.(active := uuid)
    ensures r.outcome.Fail? ==> r.next == s && r.outcome.error == ActiveAccountDoesNotExist(uuid.value)
  {
    if uuid.Some? && uuid.value !in s.store then Step(s, Fail(ActiveAccountDoesNotExist(uuid.value)))
    else Step(s.(active := uuid), Pass)
  }

  /** One account with its derived status: none for an unknown uuid, an
      error for a row that does not load. */
  function GetAccount(s: AccountState, uuid: Uuid, now: int): (r: Result<Option<AccountWithStatus>, AccountError>)
    ensures uuid !in s.store ==> r == Success(None)
    ensures r.Failure? <==> uuid in s.store && LoadAccount(s.store[uuid]).Failure?
    ensures r.Failure? ==> r.error == DbLoad(LoadAccount(s.store[uuid]).error)
    ensures r.Success? && r.value.Some? ==>
      uuid in s.store && r.value.value.account.uuid == s.store[uuid].uuid &&
      r.value.value == WithStatus(LoadAccount(s.store[uuid]).value, now)
  {
    if uuid !in s.store then Success(None)
    else match LoadAccount(s.store[uuid])
      case Failure(e) => Failure(DbLoad(e))
      case Success(acc) => Success(Some(WithStatus(acc, now)))
  }

  /** The status shown for an account: the derived status, except that a
      Microsoft account whose refresh is running reads Refreshing. */
  function GetAccountStatus(s: AccountState, uuid: Uuid, now: int): (r: Result<Option<AccountStatus>, AccountError>)
    ensures uuid !in s.store ==> r == Success(None)
    ensures r.Failure? <==> uuid in s.store && LoadAccount(s.store[uuid]).Failure?
    ensures r == Success(Some(Refreshing)) <==>
      && uuid in s.store && uuid in s.refreshing
      && LoadAccount(s.store[uuid]).Success?
      && LoadAccount(s.store[uuid]).value.kind.Microsoft?
    ensures r.Success? && r.value.Some? && r.value.value != Refreshing ==>
      uuid in s.store && LoadAccount(s.store[uuid]).Success? &&
      r.value.value == WithStatus(LoadAccount(s.store[uuid]).value, now).status
  {
    match GetAccount(s, uuid, now)
    case Failure(e) => Failure(e)
    case Success(None) => Success(None)
    case Success(Some(a)) =>
      if a.account.kind.MicrosoftType? && uuid in s.refreshing then Success(Some(Refreshing))
      else Success(Some(a.status))
  }

  /** The active account, loaded. An active uuid without a row is an error,
      as is a row that does not load. */
  function GetActiveAccount(s: AccountState): (r: Result<Option<FullAccount>, AccountError>)
    ensures s.active.None? ==> r == Success(None)
    ensures r == Failure(ActiveAccountUnreadable) <==> s.active.Some? && s.active.value !in s.store
    ensures r.Success? && r.value.Some? ==>
      s.active.Some? && s.active.value in s.store && LoadAccount(s.store[s.active.value]) == Success(r.value.value)
    ensures r.Failure? && r.error != ActiveAccountUnreadable ==>
      s.active.Some? && s.active.value in s.store && LoadAccount(s.store[s.active.value]).Failure?
  {
    match s.active
    case None => Success(None)
    case Some(uuid) =>
      if uuid !in s.store then Failure(ActiveAccountUnreadable)
      else match LoadAccount(s.store[uuid])
        case Failure(e) => Failure(DbLoad(e))
        case Success(acc) => Success(Some(acc))
  }

  /** While the active uuid names a stored account, reading the active
      account only fails when its row is badly formed, and yields the
      account filed under the active uuid. */
  lemma ActiveAccountReadable(s: AccountState)
    requires WellFormed(s) && ActiveValid(s)
    ensures GetActiveAccount(s) != Failure(ActiveAccountUnreadable)
    ensures GetActiveAccount(s).Success? && GetActiveAccount(s).value.Some? ==>
      GetActiveAccount(s).value.value.uuid == s.active.value
  {
  }

  /** A row as listed: Microsoft exactly when it holds an access token,
      whether or not it would load, with the stored skin. */
  function ListAccount(row: AccountRow): (r: Account)
    ensures r.kind.MicrosoftType? <==> row.accessToken.Some?
    ensures r.uuid == row.uuid && r.username == row.username && r.lastUsed == row.lastUsed
    ensures r.skinId == row.skinId
  {
    Account(row.username, row.uuid, row.lastUsed, if row.accessToken.Some? then MicrosoftType else OfflineType, row.skinId)
  }

  /** `entries` is the table as the manager lists it: every stored row once,
      exactly as stored, newest `last_used` first. */
  predicate IsListing(entries: seq<AccountRow>, store: map<Uuid, AccountRow>) {
    && (forall i :: 0 <= i < |entries| ==> entries[i].uuid in store && store[entries[i].uuid] == entries[i])
    && (forall k :: k in store ==> exists i :: 0 <= i < |entries| && entries[i].uuid == k)
    && (forall i, j :: 0 <= i < j < |entries| ==> entries[i].uuid != entries[j].uuid)
    && (forall i, j :: 0 <= i < j < |entries| ==> entries[i].lastUsed >= entries[j].lastUsed)
  }

  /** The account list, in the order of the listing. */
  function AccountList(entries: seq<AccountRow>): (r: seq<Account>)
    ensures |r| == |entries|
    ensures forall i :: 0 <= i < |r| ==> r[i] == ListAccount(entries[i])
  {
    seq(|entries|, i requires 0 <= i < |entries| => ListAccount(entries[i]))
  }

  /** Listing the table lists every stored account exactly once, with its
      stored name, most recently used first. */
  lemma AccountListIsTable(s: AccountState, entries: seq<AccountRow>)
    requires IsListing(entries, s.store)
    ensures var r := AccountList(entries);
      && (set i | 0 <= i < |r| :: r[i].uuid) == s.store.Keys
      && (forall i, j :: 0 <= i < j < |r| ==> r[i].uuid != r[j].uuid)
      && (forall i :: 0 <= i < |r| ==> r[i].username == s.store[r[i].uuid].username)
      && (forall i, j :: 0 <= i < j < |r| ==> r[i].lastUsed >= r[j].lastUsed)
  {
    var r := AccountList(entries);
    forall k | k in s.store
      ensures k in (set i | 0 <= i < |r| :: r[i].uuid)
    {
      var i :| 0 <= i < |entries| && entries[i].uuid == k;
      assert r[i].uuid == k;
    }
  }

  /** The list and the status view agree on every row that loads, except
      that the list shows an Offline row's stored skin where the status
      view shows none. */
  lemma ListAgreesWithStatus(row: AccountRow, now: int)
    requires LoadAccount(row).Success?
    ensures var listed := ListAccount(row);
      var shown := WithStatus(LoadAccount(row).value, now).account;
      && listed.(skinId := shown.skinId) == shown
      && (row.accessToken.Some? ==> listed == shown)
  {
  }

  /** An Offline account never reads Refreshing, refreshing or not. */
  lemma OfflineNeverRefreshing(s: AccountState, uuid: Uuid, now: int)
    requires uuid in s.store && LoadAccount(s.store[uuid]).Success?
    requires LoadAccount(s.store[uuid]).value.kind.Offline?
    ensures GetAccountStatus(s, uuid, now) == Success(Some(Ok(None)))
  {
  }

  /** The row an upsert leaves for an existing account: `last_used` and the
      uuid are kept; an Offline update clears the access token, the refresh
      token and the expiry, and leaves the id token and skin as they were. */
  function UpdatedRow(row: AccountRow, acc: FullAccount): AccountRow {
    match acc.kind
    case Offline =>
      row.(username := acc.username, accessToken := None, msRefreshToken := None, tokenExpires := None)
    case Microsoft(access, refresh, id, expires, skin) =>
      row.(username := acc.username, accessToken := Some(access), msRefreshToken := refresh,
           tokenExpires := Some(expires), idToken := id, skinId := skin)
  }

  /** The row an upsert creates for a new account, last used now. */
  function CreatedRow(acc: FullAccount, now: int): AccountRow {
    match acc.kind
    case Offline => AccountRow(acc.uuid, acc.username, None, None, None, None, None, now)
    case Microsoft(access, refresh, id, expires, skin) =>
      AccountRow(acc.uuid, acc.username, Some(access), refresh, id, Some(expires), skin, now)
  }

  /** Add or update an account (an upsert on uuid). */
  function AddAccount(s: AccountState, acc: FullAccount, now: int): (r: AccountState)
    ensures r.store.Keys == s.store.Keys + {acc.uuid}
    ensures forall k :: k in s.store && k != acc.uuid ==> r.store[k] == s.store[k]
    ensures r.store[acc.uuid].username == acc.username
    ensures r.store[acc.uuid].lastUsed == if acc.uuid in s.store then s.store[acc.uuid].lastUsed else now
    ensures acc.kind.Offline? ==>
      r.store[acc.uuid].accessToken.None? && r.store[acc.uuid].msRefreshToken.None? &&
      r.store[acc.uuid].tokenExpires.None?
    ensures acc.kind.Offline? && acc.uuid in s.store ==>
      r.store[acc.uuid].idToken == s.store[acc.uuid].idToken && r.store[acc.uuid].skinId == s.store[acc.uuid].skinId
    ensures acc.kind.Offline? && acc.uuid !in s.store ==>
      r.store[acc.uuid].idToken.None? && r.store[acc.uuid].skinId.None?
    ensures r.active == s.active && r.refreshing == s.refreshing && r.enrollment == s.enrollment
    ensures WellFormed(s) ==> WellFormed(r)
    ensures ActiveValid(s) ==> ActiveValid(r)
  {
    var row := if acc.uuid in s.store then UpdatedRow(s.store[acc.uuid], acc) else CreatedRow(acc, now);
    s.(store := s.store[acc.uuid := row])
  }

  /** Round trip: loading the row an upsert wrote gives back the account,
      with `last_used` kept from the old row or set to now for a new one. */
  lemma LoadAfterAddAccount(s: AccountState, acc: FullAccount, now: int)
    requires WellFormed(s)
    ensures LoadAccount(AddAccount(s, acc, now).store[acc.uuid]) ==
      Success(acc.(lastUsed := if acc.uuid in s.store then s.store[acc.uuid].lastUsed else now))
  {
  }

  predicate IsMostRecentlyUsed(store: map<Uuid, AccountRow>, k: Uuid) {
    k in store && forall j :: j in store ==> store[j].lastUsed <= store[k].lastUsed
  }

  lemma {:induction false} MostRecentlyUsedExists(store: map<Uuid, AccountRow>)
    requires store != map[]
    ensures exists k :: IsMostRecentlyUsed(store, k)
    decreases |store|
  {
    var k0 :| k0 in store;
    var rest := store - {k0};
    assert rest.Keys == store.Keys - {k0};
    assert forall j :: j in store ==> j == k0 || j in rest;
    if rest == map[] {
      assert IsMostRecentlyUsed(store, k0);
    } else {
      MostRecentlyUsedExists(rest);
      var k1 :| IsMostRecentlyUsed(rest, k1);
      if store[k0].lastUsed <= store[k1].lastUsed {
        assert IsMostRecentlyUsed(store, k1);
      } else {
        assert IsMostRecentlyUsed(store, k0);
      }
    }
  }

  /** The first row of the table ordered by `last_used` descending; the
      database breaks ties, so the choice among equals is left open. */
  ghost function MostRecentlyUsed(store: map<Uuid, AccountRow>): (r: Option<Uuid>)
    ensures r.None? <==> store == map[]
    ensures r.Some? ==> IsMostRecentlyUsed(store, r.value)
  {
    if store == map[] then None
    else
      MostRecentlyUsedExists(store);
      var k :| IsMostRecentlyUsed(store, k);
      Some(k)
  }

  /** Deleting an account as the source does it: when it is the active one,
      the active uuid first moves to the most recently used stored account,
      which may be the account being deleted. */
  ghost function DeleteAccount(s: AccountState, uuid: Uuid): (r: Step)
    ensures r.outcome.Pass? <==> uuid in s.store
    ensures r.outcome.Fail? ==> r.outcome.error == DeletedAccountDoesNotExist(uuid)
    ensures r.next.store == s.store - {uuid}
    ensures s.active != Some(uuid) ==> r.next.active == s.active
    ensures s.active == Some(uuid) ==> r.next.active == MostRecentlyUsed(s.store)
    ensures r.next.refreshing == s.refreshing && r.next.enrollment == s.enrollment
  {
    var s1 := if s.active == Some(uuid) then SetActiveUuid(s, MostRecentlyUsed(s.store)).next else s;
    if uuid in s1.store then Step(s1.(store := s1.store - {uuid}), Pass)
    else Step(s1, Fail(DeletedAccountDoesNotExist(uuid)))
  }

  /** Deleting the active account when it is also the most recently used one
      leaves the active uuid naming an account that no longer exists. */
  lemma DeleteActiveCanDangle()
    ensures
      var a := AccountRow("a", "alice", None, None, None, None, None, 2);
      var b := AccountRow("b", "bob", None, None, None, None, None, 1);
      var s := AccountState(map["a" := a, "b" := b], Some("a"), map[], None);
      var r := DeleteAccount(s, "a");
      ActiveValid(s) && r.outcome.Pass? && r.next.active == Some("a") && !ActiveValid(r.next)
  {
    var a := AccountRow("a", "alice", None, None, None, None, None, 2);
    var b := AccountRow("b", "bob", None, None, None, None, None, 1);
    var store := map["a" := a, "b" := b];
    var m := MostRecentlyUsed(store);
    assert store["b"].lastUsed < store["a"].lastUsed;
    assert m == Some("a");
  }

  /** Deleting an account with the replacement chosen among the accounts that
      remain, as the check in `SetActiveUuid` means it to be. */
  ghost function DeleteAccountFixed(s: AccountState, uuid: Uuid): (r: Step)
    ensures r.outcome.Pass? <==> uuid in s.store
    ensures r.outcome.Fail? ==> r.outcome.error == DeletedAccountDoesNotExist(uuid)
    ensures r.next.store == s.store - {uuid}
    ensures s.active != Some(uuid) ==> r.next.active == s.active
    ensures s.active == Some(uuid) ==> r.next.active == MostRecentlyUsed(s.store - {uuid})
    ensures r.next.refreshing == s.refreshing && r.next.enrollment == s.enrollment
    ensures ActiveValid(s) ==> ActiveValid(r.next)
    ensures WellFormed(s) ==> WellFormed(r.next)
  {
    var s1 := if s.active == Some(uuid) then SetActiveUuid(s, MostRecentlyUsed(s.store - {uuid})).next else s;
    if uuid in s1.store then Step(s1.(store := s1.store - {uuid}), Pass)
    else Step(s1, Fail(DeletedAccountDoesNotExist(uuid)))
  }

  /** Start refreshing an account's tokens. The checks come in the source's
      order: the row must exist, then hold a refresh token, then not be
      refreshing already; the snapshot must load. */
  function RefreshAccount(s: AccountState, uuid: Uuid): (r: Step)
    ensures uuid !in s.store ==> r == Step(s, Fail(NoAccount))
    ensures uuid in s.store && s.store[uuid].msRefreshToken.None? ==> r == Step(s, Fail(NoRefreshToken))
    ensures uuid in s.store && s.store[uuid].msRefreshToken.Some? && uuid in s.refreshing ==>
      r == Step(s, Fail(AlreadyRefreshing))
    ensures r.outcome.Pass? <==>
      uuid in s.store && s.store[uuid].msRefreshToken.Some? && uuid !in s.refreshing &&
      LoadAccount(s.store[uuid]).Success?
    ensures r.outcome.Pass? ==>
      r.next == s.(refreshing := s.refreshing[uuid := LoadAccount(s.store[uuid]).value])
    ensures r.outcome.Fail? ==> r.next == s
  {
    if uuid !in s.store then Step(s, Fail(NoAccount))
    else if s.store[uuid].msRefreshToken.None? then Step(s, Fail(NoRefreshToken))
    else if uuid in s.refreshing then Step(s, Fail(AlreadyRefreshing))
    else match LoadAccount(s.store[uuid])
      case Failure(e) => Step(s, Fail(DbLoad(e)))
      case Success(snapshot) => Step(s.(refreshing := s.refreshing[uuid := snapshot]), Pass)
  }

  /** Once a refresh has started, a Microsoft account reads Refreshing. */
  lemma RefreshShowsRefreshing(s: AccountState, uuid: Uuid, now: int)
    requires RefreshAccount(s, uuid).outcome.Pass?
    requires LoadAccount(s.store[uuid]).value.kind.Microsoft?
    ensures GetAccountStatus(RefreshAccount(s, uuid).next, uuid, now) == Success(Some(Refreshing))
  {
  }

  /** The snapshot with both tokens dropped, so that it reads Invalid. */
  function Invalidated(acc: FullAccount): (r: FullAccount)
    requires acc.kind.Microsoft?
    ensures r.uuid == acc.uuid && r.kind.Microsoft? && r.kind.refreshToken.None? && r.kind.idToken.None?
  {
    acc.(kind := acc.kind.(refreshToken := None, idToken := None))
  }

  /** The refresh invalidator, run when the refresh task reports `status`.
      The source panics when the uuid is not refreshing, so it is required. */
  function FinishRefresh(s: AccountState, uuid: Uuid, status: EnrollmentStatus, now: int): (r: AccountState)
    requires uuid in s.refreshing
    ensures (uuid !in r.refreshing) <==>
      status.Complete? || (status.Failed? && s.refreshing[uuid].kind.Microsoft?)
    ensures r.refreshing == s.refreshing || r.refreshing == s.refreshing - {uuid}
    ensures status.Complete? ==> r.store == AddAccount(s, FromApi(status.account, now), now).store
    ensures status == Failed(OtherFailure) || status.RequestingCode? || status.Pending? ==> r.store == s.store
    ensures status == Failed(AccountValidity) && s.refreshing[uuid].kind.Microsoft? ==>
      r.store == AddAccount(s, Invalidated(s.refreshing[uuid]), now).store
    ensures status.Failed? && !s.refreshing[uuid].kind.Microsoft? ==> r == s
    ensures (status.RequestingCode? || status.Pending?) ==> r == s
    ensures r.active == s.active && r.enrollment == s.enrollment
    ensures WellFormed(s) ==> WellFormed(r)
    ensures ActiveValid(s) ==> ActiveValid(r)
  {
    var snapshot := s.refreshing[uuid];
    var done := s.refreshing - {uuid};
    match status
    case Complete(a) => AddAccount(s, FromApi(a, now), now).(refreshing := done)
    case Failed(failure) =>
      if !snapshot.kind.Microsoft? then s
      else if failure == AccountValidity then AddAccount(s, Invalidated(snapshot), now).(refreshing := done)
      else s.(refreshing := done)
    case _ => s
  }

  /** A refresh that failed for account validity leaves the account Invalid. */
  lemma ValidityFailureInvalidates(s: AccountState, uuid: Uuid, now: int, later: int)
    requires WellFormed(s)
    requires uuid in s.refreshing && s.refreshing[uuid].kind.Microsoft?
    ensures GetAccountStatus(FinishRefresh(s, uuid, Failed(AccountValidity), now), uuid, later) ==
      Success(Some(Invalid))
  {
    var r := FinishRefresh(s, uuid, Failed(AccountValidity), now);
    var acc := Invalidated(s.refreshing[uuid]);
    assert acc.uuid == uuid;
    LoadAfterAddAccount(s, acc, now);
  }

  function BeginEnrollment(s: AccountState): (r: Step)
    ensures s.enrollment.Some? ==> r == Step(s, Fail(EnrollmentInProgress))
    ensures s.enrollment.None? ==> r == Step(s.(enrollment := Some(RequestingCode)), Pass)
  {
    if s.enrollment.Some? then Step(s, Fail(EnrollmentInProgress))
    else Step(s.(enrollment := Some(RequestingCode)), Pass)
  }

  function CancelEnrollment(s: AccountState): (r: Step)
    ensures r.next == s.(enrollment := None)
    ensures r.outcome.Fail? <==> s.enrollment.None?
    ensures r.outcome.Fail? ==> r.outcome.error == CancelNotActive
  {
    Step(s.(enrollment := None), if s.enrollment.Some? then Pass else Fail(CancelNotActive))
  }

  /** The status of the enrollment in progress, if any. */
  function GetEnrollmentStatus(s: AccountState): (r: Option<EnrollmentStatus>)
    ensures r.None? <==> s.enrollment.None?
    ensures r.Some? ==> s.enrollment == Some(r.value)
  {
    s.enrollment
  }

  /** An enrollment begun from none reads RequestingCode; it is gone after a
      cancel, and then a new one can begin. */
  lemma EnrollmentLifecycle(s: AccountState)
    requires s.enrollment.None?
    ensures GetEnrollmentStatus(BeginEnrollment(s).next) == Some(RequestingCode)
    ensures BeginEnrollment(BeginEnrollment(s).next).outcome == Fail(EnrollmentInProgress)
    ensures CancelEnrollment(BeginEnrollment(s).next).outcome.Pass?
    ensures GetEnrollmentStatus(CancelEnrollment(BeginEnrollment(s).next).next).None?
    ensures BeginEnrollment(CancelEnrollment(BeginEnrollment(s).next).next).outcome.Pass?
  {
  }

  /** Take the enrollment; a completed one adds its account and makes it the
      active one. */
  function FinalizeEnrollment(s: AccountState, now: int): (r: Step)
    ensures r.next.enrollment.None?
    ensures s.enrollment.None? ==> r == Step(s, Fail(FinalizeNotActive))
    ensures s.enrollment.Some? && !s.enrollment.value.Complete? ==>
      r == Step(s.(enrollment := None), Fail(FinalizeNotComplete))
    ensures s.enrollment.Some? && s.enrollment.value.Complete? ==>
      var a := s.enrollment.value.account;
      && r.outcome.Pass?
      && r.next.active == Some(a.uuid)
      && r.next.store == AddAccount(s, FromApi(a, now), now).store
      && r.next.refreshing == s.refreshing
    ensures WellFormed(s) ==> WellFormed(r.next)
    ensures ActiveValid(s) ==> ActiveValid(r.next)
  {
    match s.enrollment
    case None => Step(s, Fail(FinalizeNotActive))
    case Some(status) =>
      var taken := s.(enrollment := None);
      if status.Complete? then
        var added := AddAccount(taken, FromApi(status.account, now), now);
        SetActiveUuid(added, Some(status.account.uuid))
      else Step(taken, Fail(FinalizeNotComplete))
  }

  /** What the profile endpoint answered. */
  datatype ProfileResponse =
    | Profile(username: string, skinId: Option<string>)
    | AuthTokenInvalid
    | ProfileMissing
    | RequestFailed

  /** The account is only checked when it reads Ok with an access token. */
  predicate NeedsCheck(s: AccountState, uuid: Uuid, now: int) {
    && uuid in s.store
    && LoadAccount(s.store[uuid]).Success?
    && var status := WithStatus(LoadAccount(s.store[uuid]).value, now).status;
       status.Ok? && status.accessToken.Some?
  }

  /** Ask the profile endpoint about an account: a rejected token expires the
      account now, a profile overwrites username and skin. */
  function RefreshAccountStatus(s: AccountState, uuid: Uuid, now: int, response: ProfileResponse): (r: Step)
    ensures uuid !in s.store ==> r == Step(s, Fail(AccountMissing(uuid)))
    ensures uuid in s.store && LoadAccount(s.store[uuid]).Failure? ==>
      r == Step(s, Fail(DbLoad(LoadAccount(s.store[uuid]).error)))
    ensures uuid in s.store && LoadAccount(s.store[uuid]).Success? && !NeedsCheck(s, uuid, now) ==>
      r == Step(s, Pass)
    ensures NeedsCheck(s, uuid, now) && response.Profile? ==>
      r == Step(s.(store := s.store[uuid := s.store[uuid].(username := response.username,
                                                         skinId := response.skinId)]), Pass)
    ensures NeedsCheck(s, uuid, now) && response.AuthTokenInvalid? ==>
      r == Step(s.(store := s.store[uuid := s.store[uuid].(tokenExpires := Some(now))]), Pass)
    ensures NeedsCheck(s, uuid, now) && response.ProfileMissing? ==> r == Step(s, Fail(GameProfileMissing))
    ensures NeedsCheck(s, uuid, now) && response.RequestFailed? ==> r == Step(s, Fail(ProfileRequestFailed))
    ensures r.next.store.Keys == s.store.Keys
    ensures r.next.active == s.active && r.next.refreshing == s.refreshing && r.next.enrollment == s.enrollment
  {
    if uuid !in s.store then Step(s, Fail(AccountMissing(uuid)))
    else match LoadAccount(s.store[uuid])
      case Failure(e) => Step(s, Fail(DbLoad(e)))
      case Success(acc) =>
        if !NeedsCheck(s, uuid, now) then Step(s, Pass)
        else
          var row := s.store[uuid];
          match response
          case Profile(name, skin) =>
            Step(s.(store := s.store[uuid := row.(username := name, skinId := skin)]), Pass)
          case AuthTokenInvalid =>
            Step(s.(store := s.store[uuid := row.(tokenExpires := Some(now))]), Pass)
          case ProfileMissing => Step(s, Fail(GameProfileMissing))
          case RequestFailed => Step(s, Fail(ProfileRequestFailed))
  }

  /** Offline accounts are never sent to the profile endpoint. */
  lemma OfflineNeverChecked(s: AccountState, uuid: Uuid, now: int, response: ProfileResponse)
    requires uuid in s.store && s.store[uuid].accessToken.None?
    ensures RefreshAccountStatus(s, uuid, now, response) == Step(s, Pass)
  {
  }

  /** A rejected token makes the account read Expired from then on, unless a
      refresh is running. */
  lemma RejectedTokenExpires(s: AccountState, uuid: Uuid, now: int, later: int)
    requires NeedsCheck(s, uuid, now) && uuid !in s.refreshing
    requires later > now
    ensures GetAccountStatus(RefreshAccountStatus(s, uuid, now, AuthTokenInvalid).next, uuid, later) ==
      Success(Some(Expired))
  {
  }
}

=== FILE: download.dfy ===
/** The download core of the networking crate: the `Downloadable` record and
    its builders, the acceptance rules of a single download, the per-file
    decision of a batch download (keep the file on disk, report that it is
    missing, or fetch it), the byte accounting of a fetched file and the
    aggregation of the per-file results.

    The network is a `Response` (status code and body chunks), the disk is a
    `LocalFile`, and hashing is the `digest` parameter: the lower-case hex
    digest of a byte string under an algorithm. The batch's tasks run
    concurrently in the source; here each file's task runs on its own, one
    after another. */
module Download {
  import opened Wrappers

  newtype byte = x: int | 0 <= x < 256

  /** 2^64: the range of the source's `u64` counters. */
  const U64Modulus: int := 0x1_0000_0000_0000_0000

  datatype HashAlg = SHA1 | SHA256 | MD5

  /** An expected digest, as lower-case hex, with its algorithm. */
  datatype Checksum = Sha1(hex: string) | Sha256(hex: string) | Md5(hex: string) {
    function Alg(): HashAlg {
      match this
      case Sha1(_) => SHA1
      case Sha256(_) => SHA256
      case Md5(_) => MD5
    }
  }

  /** Lower-case hex digest of the bytes under the algorithm. */
  type Digest = (HashAlg, seq<byte>) -> string

  datatype Downloadable = Downloadable(url: string, path: string, checksum: Option<Checksum>, size: Option<nat>)

  function NewDownloadable(url: string, path: string): (r: Downloadable)
    ensures r.url == url && r.path == path
    ensures r.checksum.None? && r.size.None?
  {
    Downloadable(url, path, None, None)
  }

  function WithChecksum(d: Downloadable, checksum: Option<Checksum>): (r: Downloadable)
    ensures r.checksum == checksum
    ensures r.url == d.url && r.path == d.path && r.size == d.size
  {
    d.(checksum := checksum)
  }

  function WithSize(d: Downloadable, size: nat): (r: Downloadable)
    ensures r.size == Some(size)
    ensures r.url == d.url && r.path == d.path && r.checksum == d.checksum
  {
    d.(size := Some(size))
  }

  /** The two builders touch disjoint fields, so their order does not matter,
      and a built record is the plain record with both fields filled in. */
  lemma BuildersCommute(url: string, path: string, checksum: Option<Checksum>, size: nat)
    ensures WithSize(WithChecksum(NewDownloadable(url, path), checksum), size) ==
            WithChecksum(WithSize(NewDownloadable(url, path), size), checksum)
    ensures WithSize(WithChecksum(NewDownloadable(url, path), checksum), size) ==
            Downloadable(url, path, checksum, Some(size))
  {
  }

  datatype Progress = Progress(totalCount: nat, currentCount: nat, totalSize: nat, currentSize: nat)

  datatype DownloadError =
    | Non200StatusCode(file: Downloadable, status: int)
    | SizeMismatch(expectedSize: nat, actualSize: nat)
    | ChecksumMismatch(expected: string, actual: string, url: string, path: string)
    | Io

  /** What the server answered: its status code and the body in chunks. */
  datatype Response = Response(status: int, chunks: seq<seq<byte>>)

  predicate IsSuccessStatus(status: int) {
    200 <= status <= 299
  }

  function Concat(chunks: seq<seq<byte>>): seq<byte> {
    if |chunks| == 0 then [] else Concat(chunks[..|chunks| - 1]) + chunks[|chunks| - 1]
  }

  predicate SizeAccepted(d: Downloadable, body: seq<byte>) {
    d.size.None? || d.size.value == |body|
  }

  predicate ChecksumAccepted(d: Downloadable, body: seq<byte>, digest: Digest) {
    d.checksum.None? || digest(d.checksum.value.Alg(), body) == d.checksum.value.hex
  }

  /** The checks of a single download: the size first, then the checksum;
      an absent size or checksum is not checked. */
  function Verify(d: Downloadable, body: seq<byte>, digest: Digest): (r: Result<(), DownloadError>)
    ensures r.Success? <==> SizeAccepted(d, body) && ChecksumAccepted(d, body, digest)
    ensures !SizeAccepted(d, body) ==> r == Failure(SizeMismatch(d.size.value, |body|))
    ensures SizeAccepted(d, body) && !ChecksumAccepted(d, body, digest) ==>
      r == Failure(ChecksumMismatch(d.checksum.value.hex, digest(d.checksum.value.Alg(), body), d.url, d.path))
  {
    if d.size.Some? && d.size.value != |body| then Failure(SizeMismatch(d.size.value, |body|))
    else if d.checksum.Some? && digest(d.checksum.value.Alg(), body) != d.checksum.value.hex then
      Failure(ChecksumMismatch(d.checksum.value.hex, digest(d.checksum.value.Alg(), body), d.url, d.path))
    else Success(())
  }

  /** A single download with its progress reports: one per chunk with the
      bytes received so far, then, only once both checks pass, a final one
      counting the file as done. */
  method DownloadFile(d: Downloadable, response: Response, digest: Digest)
    returns (reports: seq<Progress>, result: Result<(), DownloadError>)
    ensures !IsSuccessStatus(response.status) ==>
      result == Failure(Non200StatusCode(d, response.status)) && reports == []
    ensures IsSuccessStatus(response.status) ==> result == Verify(d, Concat(response.chunks), digest)
    ensures IsSuccessStatus(response.status) ==>
      |reports| == |response.chunks| + (if result.Success? then 1 else 0)
    ensures forall i :: 0 <= i < |reports| ==>
      reports[i].totalCount == 1 && reports[i].totalSize == d.size.UnwrapOr(0)
    ensures forall i :: 0 <= i < |reports| && i < |response.chunks| ==>
      reports[i].currentCount == 0 && reports[i].currentSize == |Concat(response.chunks[..i + 1])|
    ensures forall i, j :: 0 <= i <= j < |reports| ==> reports[i].currentSize <= reports[j].currentSize
    ensures forall i :: 0 <= i < |reports| ==>
      (reports[i].currentCount == 1 <==> result.Success? && i == |reports| - 1)
    ensures result.Success? ==> reports[|reports| - 1].currentSize == |Concat(response.chunks)|
  {
    if !IsSuccessStatus(response.status) {
      return [], Failure(Non200StatusCode(d, response.status));
    }
    var chunks := response.chunks;
    var totalSize := d.size.UnwrapOr(0);
    var buf: seq<byte> := [];
    reports := [];
    var n := 0;
    while n < |chunks|
      invariant 0 <= n <= |chunks|
      invariant buf == Concat(chunks[..n])
      invariant |reports| == n
      invariant forall i :: 0 <= i < n ==> reports[i] == Progress(1, 0, totalSize, |Concat(chunks[..i + 1])|)
    {
      assert chunks[..n + 1][..n] == chunks[..n];
      buf := buf + chunks[n];
      reports := reports + [Progress(1, 0, totalSize, |buf|)];
      n := n + 1;
    }
    assert chunks[..n] == chunks;
    result := Verify(d, buf, digest);
    if result.Success? {
      reports := reports + [Progress(1, 1, totalSize, |buf|)];
    }
    forall i, j | 0 <= i <= j < |reports|
      ensures reports[i].currentSize <= reports[j].currentSize
    {
      if i < |chunks| {
        ConcatPrefixGrows(chunks, i + 1, if j < |chunks| then j + 1 else |chunks|);
      }
    }
  }

  lemma {:induction false} ConcatPrefixGrows(chunks: seq<seq<byte>>, i: nat, j: nat)
    requires i <= j <= |chunks|
    ensures |Concat(chunks[..i])| <= |Concat(chunks[..j])|
    decreases j
  {
    if i < j {
      ConcatPrefixGrows(chunks, i, j - 1);
      assert chunks[..j][..j - 1] == chunks[..j - 1];
    }
  }

  /** What a batch task found on disk. */
  datatype LocalFile = LocalFile(present: bool, metadataLen: Option<nat>, contents: Option<seq<byte>>)

  /** The cheap check: the file is there and, when a size is known, its
      length as reported by its metadata is that size. */
  function FileLooksGood(size: Option<nat>, local: LocalFile): (r: bool)
    ensures r <==> local.present && (size.Some? ==> local.metadataLen == Some(size.value))
  {
    match size
    case Some(s) =>
      if local.present then
        match local.metadataLen
        case Some(len) => len == s
        case None => false
      else false
    case None => local.present
  }

  /** What a batch task does with a file: keep the copy on disk (checked
      against its digest or not), report it as missing without fetching, or
      fetch it. */
  datatype Decision = Keep(verified: bool) | ReportMissing | Fetch

  predicate DigestMatches(d: Downloadable, contents: seq<byte>, digest: Digest) {
    d.checksum.Some? && digest(d.checksum.value.Alg(), contents) == d.checksum.value.hex
  }

  function Decide(d: Downloadable, local: LocalFile, deepCheck: bool, skipDownload: bool, digest: Digest)
    : (r: Result<Decision, DownloadError>)
    ensures FileLooksGood(d.size, local) && !deepCheck ==> r == Success(Keep(false))
    ensures !FileLooksGood(d.size, local) && skipDownload ==> r == Success(ReportMissing)
    ensures !FileLooksGood(d.size, local) && !skipDownload ==> r == Success(Fetch)
    ensures FileLooksGood(d.size, local) && deepCheck ==>
      match local.contents
      case None => r == Failure(Io)
      case Some(c) => r == Success(if DigestMatches(d, c, digest) then Keep(true) else Fetch)
    ensures r.Failure? ==> r.error == Io
  {
    if FileLooksGood(d.size, local) then
      if deepCheck then
        match local.contents
        case None => Failure(Io)
        case Some(c) => if DigestMatches(d, c, digest) then Success(Keep(true)) else Success(Fetch)
      else Success(Keep(false))
    else if skipDownload then Success(ReportMissing)
    else Success(Fetch)
  }

  /** A file is only ever kept when it looks good, and kept as verified
      only when a checksum is given and its digest matches it. A good-looking,
      readable file under a deep check without a checksum is fetched, even
      with `skipDownload`. */
  lemma KeepOnlyWhatLooksGood(d: Downloadable, local: LocalFile, deepCheck: bool, skipDownload: bool, digest: Digest)
    ensures var r := Decide(d, local, deepCheck, skipDownload, digest);
      && (r.Success? && r.value.Keep? ==> FileLooksGood(d.size, local))
      && (r == Success(Keep(true)) ==> deepCheck && local.contents.Some? && DigestMatches(d, local.contents.value, digest))
      && (deepCheck && d.checksum.None? && FileLooksGood(d.size, local) && local.contents.Some? ==> r == Success(Fetch))
  {
  }

  /** What a verified kept file adds to the shared progress counter, as
      written: the size, unwrapped. `None` is the panic of unwrapping an
      absent size. */
  function KeepCreditAsWritten(d: Downloadable): (r: Option<nat>)
    ensures r.None? <==> d.size.None?
    ensures r.Some? ==> r.value == d.size.value
  {
    d.size
  }

  /** A file of unknown size that is on disk and matches its digest is kept
      as verified, and crediting it then unwraps the absent size. */
  lemma UnknownSizeKeepPanics()
    ensures
      var d := Downloadable("u", "p", Some(Sha1("ab")), None);
      var local := LocalFile(true, None, Some([]));
      var digest: Digest := (alg, bytes) => "ab";
      Decide(d, local, true, false, digest) == Success(Keep(true)) && KeepCreditAsWritten(d).None?
  {
  }

  /** The credit of a verified kept file, with the file's own length
      standing in for an unknown size. It never fails, agrees with the
      source wherever the source does not panic, and for a kept file whose
      metadata agrees with its contents it is the length on disk. */
  function KeepCredit(d: Downloadable, contents: seq<byte>): (r: nat)
    ensures KeepCreditAsWritten(d).Some? ==> r == KeepCreditAsWritten(d).value
    ensures d.size.None? ==> r == |contents|
  {
    d.size.UnwrapOr(|contents|)
  }

  lemma KeepCreditIsLengthOnDisk(d: Downloadable, local: LocalFile, deepCheck: bool, skipDownload: bool, digest: Digest)
    requires Decide(d, local, deepCheck, skipDownload, digest) == Success(Keep(true))
    requires local.metadataLen.Some? ==> local.metadataLen.value == |local.contents.value|
    ensures KeepCredit(d, local.contents.value) == |local.contents.value|
  {
  }

  function Sum(lens: seq<nat>): nat {
    if |lens| == 0 then 0 else Sum(lens[..|lens| - 1]) + lens[|lens| - 1]
  }

  function Max(a: nat, b: nat): nat {
    if a < b then b else a
  }

  /** One progress report while a batch file is fetched: the shared counter
      before this chunk was added (`fetch_add` returns the old value) and
      the shared total size after any growth. */
  datatype Tick = Tick(currentSize: nat, totalSize: nat)

  /** The chunk accounting of a fetched file. `reported` is what the file
      counts for in the total size: its announced size until the body
      outgrows it, and from then on the bytes received; the total grows by
      exactly that overshoot. */
  method TrackChunks(size: Option<nat>, chunks: seq<nat>, counter0: nat, total0: nat)
    returns (downloaded: nat, reported: nat, counter: nat, total: nat, ticks: seq<Tick>)
    ensures downloaded == Sum(chunks)
    ensures reported == Max(size.UnwrapOr(0), downloaded)
    ensures downloaded <= reported
    ensures counter == counter0 + downloaded
    ensures total == total0 + (reported - size.UnwrapOr(0))
    ensures |ticks| == |chunks|
    ensures forall i :: 0 <= i < |chunks| ==>
      ticks[i] == Tick(counter0 + Sum(chunks[..i]), total0 + Max(size.UnwrapOr(0), Sum(chunks[..i + 1])) - size.UnwrapOr(0))
    ensures forall i, j :: 0 <= i <= j < |ticks| ==>
      ticks[i].currentSize <= ticks[j].currentSize && ticks[i].totalSize <= ticks[j].totalSize
  {
    var initial := size.UnwrapOr(0);
    downloaded, reported, counter, total := 0, initial, counter0, total0;
    ticks := [];
    var n := 0;
    while n < |chunks|
      invariant 0 <= n <= |chunks|
      invariant downloaded == Sum(chunks[..n])
      invariant reported == Max(initial, downloaded)
      invariant counter == counter0 + downloaded
      invariant total == total0 + (reported - initial)
      invariant |ticks| == n
      invariant forall i :: 0 <= i < n ==>
        ticks[i] == Tick(counter0 + Sum(chunks[..i]), total0 + Max(initial, Sum(chunks[..i + 1])) - initial)
    {
      assert chunks[..n + 1][..n] == chunks[..n];
      var before := counter;
      counter := counter + chunks[n];
      downloaded := downloaded + chunks[n];
      if downloaded > reported {
        var diff := downloaded - reported;
        reported := downloaded;
        total := total + diff;
      }
      ticks := ticks + [Tick(before, total)];
      n := n + 1;
    }
    assert chunks[..n] == chunks;
    forall i, j | 0 <= i <= j < |ticks|
      ensures ticks[i].currentSize <= ticks[j].currentSize && ticks[i].totalSize <= ticks[j].totalSize
    {
      SumPrefixGrows(chunks, i, j);
      SumPrefixGrows(chunks, i + 1, j + 1);
    }
  }

  lemma {:induction false} SumPrefixGrows(lens: seq<nat>, i: nat, j: nat)
    requires i <= j <= |lens|
    ensures Sum(lens[..i]) <= Sum(lens[..j])
    decreases j
  {
    if i < j {
      SumPrefixGrows(lens, i, j - 1);
      assert lens[..j][..j - 1] == lens[..j - 1];
    }
  }

  /** The final correction of a fetched file as written: the shortfall
      `reported - downloaded` is taken off the shared counter with a
      wrapping `fetch_sub`; the result is the new counter, also sent as the
      current size. */
  function FinishAsWritten(counter: nat, reported: nat, downloaded: nat): (r: nat)
    requires downloaded <= reported
    requires counter < U64Modulus && reported < U64Modulus
    ensures r < U64Modulus
    ensures r + (reported - downloaded) == counter || r + (reported - downloaded) == counter + U64Modulus
  {
    var diff := reported - downloaded;
    if diff <= counter then counter - diff else U64Modulus + counter - diff
  }

  /** A lone file announced at 10 bytes whose body has 4: the file added 10
      to the total size, but the counter, 4 after the body, is taken down by
      the shortfall 6 and wraps around instead of reaching 10. */
  lemma ShortBodyCorrectionWraps()
    ensures Max(10, Sum([4])) == 10
    ensures FinishAsWritten(0 + Sum([4]), 10, Sum([4])) == U64Modulus - 2
  {
  }

  /** The final correction as intended: the shortfall is added, so the file
      ends up counted for exactly what it counts for in the total size. */
  function Finish(counter: nat, reported: nat, downloaded: nat): (r: nat)
    requires downloaded <= reported
    ensures r + downloaded == counter + reported
  {
    counter + (reported - downloaded)
  }

  function ChunkLengths(chunks: seq<seq<byte>>): (r: seq<nat>)
    ensures |r| == |chunks|
    ensures Sum(r) == |Concat(chunks)|
    decreases |chunks|
  {
    if |chunks| == 0 then []
    else
      var r := ChunkLengths(chunks[..|chunks| - 1]) + [|chunks[|chunks| - 1]|];
      assert r[..|r| - 1] == ChunkLengths(chunks[..|chunks| - 1]);
      r
  }

  /** The result of fetching a batch file. There is no size check here,
      only the checksum check. */
  function FetchResult(d: Downloadable, response: Response, digest: Digest): (r: Result<bool, DownloadError>)
    ensures r.Success? ==> r.value
    ensures r.Success? <==>
      IsSuccessStatus(response.status) && ChecksumAccepted(d, Concat(response.chunks), digest)
    ensures !IsSuccessStatus(response.status) ==> r == Failure(Non200StatusCode(d, response.status))
    ensures IsSuccessStatus(response.status) && !ChecksumAccepted(d, Concat(response.chunks), digest) ==>
      r == Failure(ChecksumMismatch(d.checksum.value.hex, digest(d.checksum.value.Alg(), Concat(response.chunks)), d.url, d.path))
  {
    if !IsSuccessStatus(response.status) then Failure(Non200StatusCode(d, response.status))
    else
      var body := Concat(response.chunks);
      if ChecksumAccepted(d, body, digest) then Success(true)
      else Failure(ChecksumMismatch(d.checksum.value.hex, digest(d.checksum.value.Alg(), body), d.url, d.path))
  }

  /** A body of the wrong length is accepted by a batch fetch when the
      checksum matches, unlike a single download. */
  lemma BatchFetchIgnoresSize(d: Downloadable, response: Response, digest: Digest)
    requires IsSuccessStatus(response.status)
    requires ChecksumAccepted(d, Concat(response.chunks), digest)
    ensures FetchResult(d, response, digest) == Success(true)
    ensures !SizeAccepted(d, Concat(response.chunks)) ==>
      Verify(d, Concat(response.chunks), digest).Failure?
  {
  }

  /** Fetching a batch file with its counter bookkeeping, with the final
      correction as intended (`Finish`), not the wrapping subtraction of the
      source (`FinishAsWritten`). */
  method FetchFile(d: Downloadable, response: Response, digest: Digest, counter0: nat, total0: nat)
    returns (result: Result<bool, DownloadError>, counter: nat, total: nat)
    ensures result == FetchResult(d, response, digest)
    ensures !IsSuccessStatus(response.status) ==> counter == counter0 && total == total0
    ensures IsSuccessStatus(response.status) ==>
      && total == total0 + Max(d.size.UnwrapOr(0), |Concat(response.chunks)|) - d.size.UnwrapOr(0)
      && counter == counter0 + d.size.UnwrapOr(0) + (total - total0)
  {
    counter, total := counter0, total0;
    if !IsSuccessStatus(response.status) {
      return Failure(Non200StatusCode(d, response.status)), counter, total;
    }
    var downloaded, reported, ticks;
    downloaded, reported, counter, total, ticks := TrackChunks(d.size, ChunkLengths(response.chunks), counter0, total0);
    counter := Finish(counter, reported, downloaded);
    result := FetchResult(d, response, digest);
  }

  /** The result of one batch task, for the program with a verified kept
      file credited by `KeepCredit`: where the source panics on an unknown
      size (`UnknownSizeKeepPanics`), the task here succeeds. */
  function TaskResult(d: Downloadable, local: LocalFile, response: Response,
                      deepCheck: bool, skipDownload: bool, digest: Digest): (r: Result<bool, DownloadError>)
    ensures r == Success(false) <==>
      Decide(d, local, deepCheck, skipDownload, digest).Success? &&
      Decide(d, local, deepCheck, skipDownload, digest).value.Keep?
    ensures Decide(d, local, deepCheck, skipDownload, digest).Failure? ==> r.Failure?
    ensures Decide(d, local, deepCheck, skipDownload, digest) == Success(ReportMissing) ==> r == Success(true)
    ensures Decide(d, local, deepCheck, skipDownload, digest) == Success(Fetch) ==>
      r == FetchResult(d, response, digest)
  {
    match Decide(d, local, deepCheck, skipDownload, digest)
    case Failure(e) => Failure(e)
    case Success(Keep(_)) => Success(false)
    case Success(ReportMissing) => Success(true)
    case Success(Fetch) => FetchResult(d, response, digest)
  }

  /** One batch task with its counter bookkeeping, built from the corrected
      `KeepCredit` and `Finish`. */
  method RunTask(d: Downloadable, local: LocalFile, response: Response,
                 deepCheck: bool, skipDownload: bool, digest: Digest, counter0: nat, total0: nat)
    returns (result: Result<bool, DownloadError>, counter: nat, total: nat)
    ensures result == TaskResult(d, local, response, deepCheck, skipDownload, digest)
    ensures total >= total0 && counter >= counter0
    ensures Decide(d, local, deepCheck, skipDownload, digest) != Success(Fetch) ==> total == total0
    ensures Decide(d, local, deepCheck, skipDownload, digest) == Success(Keep(true)) ==>
      counter == counter0 + KeepCredit(d, local.contents.value)
    ensures (Decide(d, local, deepCheck, skipDownload, digest) != Success(Fetch) &&
             Decide(d, local, deepCheck, skipDownload, digest) != Success(Keep(true))) ==> counter == counter0
    ensures Decide(d, local, deepCheck, skipDownload, digest) == Success(Fetch) ==>
      counter == counter0 + (if IsSuccessStatus(response.status) then d.size.UnwrapOr(0) else 0) + (total - total0)
    ensures Decide(d, local, deepCheck, skipDownload, digest) == Success(Fetch) ==>
      total == total0 + (if IsSuccessStatus(response.status)
                         then Max(d.size.UnwrapOr(0), |Concat(response.chunks)|) - d.size.UnwrapOr(0)
                         else 0)
  {
    counter, total := counter0, total0;
    var decision := Decide(d, local, deepCheck, skipDownload, digest);
    match decision {
      case Failure(e) =>
        result := Failure(e);
      case Success(Keep(verified)) =>
        if verified {
          counter := counter + KeepCredit(d, local.contents.value);
        }
        result := Success(false);
      case Success(ReportMissing) =>
        result := Success(true);
      case Success(Fetch) =>
        result, counter, total := FetchFile(d, response, digest, counter0, total0);
    }
  }

  /** The batch result: the first failure in input order, otherwise whether
      any task needs a download. */
  function Aggregate(results: seq<Result<bool, DownloadError>>): (r: Result<bool, DownloadError>)
    ensures r.Failure? <==> exists i :: 0 <= i < |results| && results[i].Failure?
    ensures r.Failure? ==>
      exists i :: 0 <= i < |results| && results[i] == Failure(r.error) &&
        forall j :: 0 <= j < i ==> results[j].Success?
    ensures r.Success? ==> (r.value <==> exists i :: 0 <= i < |results| && results[i] == Success(true))
  {
    if |results| == 0 then Success(false)
    else match results[0]
      case Failure(e) => Failure(e)
      case Success(b) =>
        match Aggregate(results[1..])
        case Failure(e) => Failure(e)
        case Success(rest) => Success(b || rest)
  }

  function KnownSizeSum(files: seq<Downloadable>): nat {
    if |files| == 0 then 0 else files[0].size.UnwrapOr(0) + KnownSizeSum(files[1..])
  }

  /** A batch download: the progress totals it starts from, and its result
      from the tasks' results in input order. */
  method DownloadMultiple(files: seq<Downloadable>, locals: seq<LocalFile>, responses: seq<Response>,
                          deepCheck: bool, skipDownload: bool, digest: Digest)
    returns (result: Result<bool, DownloadError>, totalCount: nat, initialTotal: nat)
    requires |locals| == |files| && |responses| == |files|
    ensures totalCount == |files|
    ensures initialTotal == KnownSizeSum(files)
    ensures result.Failure? <==>
      exists i :: 0 <= i < |files| && TaskResult(files[i], locals[i], responses[i], deepCheck, skipDownload, digest).Failure?
    ensures result.Failure? ==>
      exists i :: 0 <= i < |files| &&
        TaskResult(files[i], locals[i], responses[i], deepCheck, skipDownload, digest) == Failure(result.error) &&
        forall j :: 0 <= j < i ==> TaskResult(files[j], locals[j], responses[j], deepCheck, skipDownload, digest).Success?
    ensures result.Success? ==> (result.value <==>
      exists i :: 0 <= i < |files| &&
        TaskResult(files[i], locals[i], responses[i], deepCheck, skipDownload, digest) == Success(true))
  {
    totalCount := |files|;
    initialTotal := KnownSizeSum(files);
    var results: seq<Result<bool, DownloadError>> := [];
    var n := 0;
    while n < |files|
      invariant 0 <= n <= |files|
      invariant |results| == n
      invariant forall i :: 0 <= i < n ==>
        results[i] == TaskResult(files[i], locals[i], responses[i], deepCheck, skipDownload, digest)
    {
      results := results + [TaskResult(files[n], locals[n], responses[n], deepCheck, skipDownload, digest)];
      n := n + 1;
    }
    result := Aggregate(results);
  }
}

=== FILE: import.dfy ===
/** The importer's side of the instance-import endpoints: its entity enum
    and its importable-instance record. The importer itself
    (`managers/instance/importer`) is not part of this model; only the shape
    of these two types, as the endpoints use them, is. */
module Importer {

  /** A filesystem path. It is built from a string and read back with a
      lossy conversion; for a path built from a Rust `String` that round trip
      is lossless, and this model takes it to be so. */
  datatype Path = Path(text: string)

  function PathFromString(s: string): (p: Path)
    ensures p.text == s
  {
    Path(s)
  }

  function PathToStringLossy(p: Path): (s: string)
    ensures PathFromString(s) == p
  {
    p.text
  }

  datatype Entity =
    | LegacyGDLauncher
    | MRPack(path: Path)
    | Modrinth
    | CurseForgeZip(path: Path)
    | CurseForge
    | ATLauncher
    | Technic
    | FTB
    | MultiMC
    | PrismLauncher

  datatype ImportableInstance = ImportableInstance(name: string)
}

/** The instance-import endpoints: the frontend's entity enum, the two
    conversions between it and the importer's, and the dispatch of the
    scan, list and import endpoints, which only support the legacy
    launcher. The legacy importer's operations are inputs. */
module Import {
  import opened Wrappers
  import Importer

  /** The ten import sources, without payloads: the reference against which
      both conversions are checked to keep the variant. */
  datatype EntityKind =
    | LegacyKind | MRPackKind | ModrinthKind | CurseForgeZipKind | CurseForgeKind
    | ATLauncherKind | TechnicKind | FTBKind | MultiMCKind | PrismLauncherKind

  datatype FEEntity =
    | LegacyGDLauncher
    | MRPack(path: string)
    | Modrinth
    | CurseForgeZip(path: string)
    | CurseForge
    | ATLauncher
    | Technic
    | FTB
    | MultiMC
    | PrismLauncher

  function FEKind(e: FEEntity): EntityKind {
    match e
    case LegacyGDLauncher => LegacyKind
    case MRPack(_) => MRPackKind
    case Modrinth => ModrinthKind
    case CurseForgeZip(_) => CurseForgeZipKind
    case CurseForge => CurseForgeKind
    case ATLauncher => ATLauncherKind
    case Technic => TechnicKind
    case FTB => FTBKind
    case MultiMC => MultiMCKind
    case PrismLauncher => PrismLauncherKind
  }

  function ImporterKind(e: Importer.Entity): EntityKind {
    match e
    case LegacyGDLauncher => LegacyKind
    case MRPack(_) => MRPackKind
    case Modrinth => ModrinthKind
    case CurseForgeZip(_) => CurseForgeZipKind
    case CurseForge => CurseForgeKind
    case ATLauncher => ATLauncherKind
    case Technic => TechnicKind
    case FTB => FTBKind
    case MultiMC => MultiMCKind
    case PrismLauncher => PrismLauncherKind
  }

  /** Frontend to importer: same variant, path payloads carried across. */
  function ToImporterEntity(e: FEEntity): (r: Importer.Entity)
    ensures ImporterKind(r) == FEKind(e)
    ensures e.MRPack? ==> r.path == Importer.PathFromString(e.path)
    ensures e.CurseForgeZip? ==> r.path == Importer.PathFromString(e.path)
  {
    match e
    case LegacyGDLauncher => Importer.LegacyGDLauncher
    case MRPack(p) => Importer.MRPack(Importer.PathFromString(p))
    case Modrinth => Importer.Modrinth
    case CurseForgeZip(p) => Importer.CurseForgeZip(Importer.PathFromString(p))
    case CurseForge => Importer.CurseForge
    case ATLauncher => Importer.ATLauncher
    case Technic => Importer.Technic
    case FTB => Importer.FTB
    case MultiMC => Importer.MultiMC
    case PrismLauncher => Importer.PrismLauncher
  }

  /** Importer to frontend: same variant, paths read back as strings. */
  function ToFEEntity(e: Importer.Entity): (r: FEEntity)
    ensures FEKind(r) == ImporterKind(e)
    ensures e.MRPack? ==> r.path == Importer.PathToStringLossy(e.path)
    ensures e.CurseForgeZip? ==> r.path == Importer.PathToStringLossy(e.path)
  {
    match e
    case LegacyGDLauncher => LegacyGDLauncher
    case MRPack(p) => MRPack(Importer.PathToStringLossy(p))
    case Modrinth => Modrinth
    case CurseForgeZip(p) => CurseForgeZip(Importer.PathToStringLossy(p))
    case CurseForge => CurseForge
    case ATLauncher => ATLauncher
    case Technic => Technic
    case FTB => FTB
    case MultiMC => MultiMC
    case PrismLauncher => PrismLauncher
  }

  /** Frontend to importer and back is the identity. */
  lemma FERoundTrip(e: FEEntity)
    ensures ToFEEntity(ToImporterEntity(e)) == e
  {
    match e
    case MRPack(p) =>
      assert Importer.PathToStringLossy(Importer.PathFromString(p)) == p;
    case CurseForgeZip(p) =>
      assert Importer.PathToStringLossy(Importer.PathFromString(p)) == p;
    case _ =>
  }

  /** Importer to frontend and back is the identity too. */
  lemma ImporterRoundTrip(e: Importer.Entity)
    ensures ToImporterEntity(ToFEEntity(e)) == e
  {
  }

  datatype FEImportableInstance = FEImportableInstance(name: string)

  function ToFEImportableInstance(i: Importer.ImportableInstance): (r: FEImportableInstance)
    ensures r.name == i.name
  {
    FEImportableInstance(i.name)
  }

  datatype FEImportInstance = FEImportInstance(entity: FEEntity, index: u32, name: string)

  datatype ImportError = UnsupportedEntity | ImporterFailed(message: string)

  function Lift<T>(r: Result<T, string>): Result<T, ImportError> {
    match r
    case Success(v) => Success(v)
    case Failure(m) => Failure(ImporterFailed(m))
  }

  /** Scan for importable instances; `legacyScan` is the legacy importer's
      scan result. */
  function ScanImportableInstances(entity: FEEntity, legacyScan: Result<(), string>): (r: Result<(), ImportError>)
    ensures !entity.LegacyGDLauncher? ==> r == Failure(UnsupportedEntity)
    ensures entity.LegacyGDLauncher? ==> (r.Success? <==> legacyScan.Success?)
    ensures r.Failure? && entity.LegacyGDLauncher? ==> r.error == ImporterFailed(legacyScan.error)
  {
    match entity
    case LegacyGDLauncher => Lift(legacyScan)
    case _ => Failure(UnsupportedEntity)
  }

  /** List the importable instances; `legacyAvailable` is what the legacy
      importer has found. */
  function GetImportableInstances(entity: FEEntity, legacyAvailable: Result<seq<Importer.ImportableInstance>, string>)
    : (r: Result<seq<FEImportableInstance>, ImportError>)
    ensures !entity.LegacyGDLauncher? ==> r == Failure(UnsupportedEntity)
    ensures entity.LegacyGDLauncher? ==> (r.Success? <==> legacyAvailable.Success?)
    ensures r.Success? ==>
      |r.value| == |legacyAvailable.value| &&
      forall i :: 0 <= i < |r.value| ==> r.value[i].name == legacyAvailable.value[i].name
  {
    match entity
    case LegacyGDLauncher =>
      (match legacyAvailable
       case Success(found) => Success(seq(|found|, i requires 0 <= i < |found| => ToFEImportableInstance(found[i])))
       case Failure(m) => Failure(ImporterFailed(m)))
    case _ => Failure(UnsupportedEntity)
  }

  /** Import one instance; `legacyImport` is the legacy importer's import
      operation, which yields a task id. */
  function ImportInstance(args: FEImportInstance, legacyImport: (u32, string) -> Result<nat, string>)
    : (r: Result<nat, ImportError>)
    ensures !args.entity.LegacyGDLauncher? ==> r == Failure(UnsupportedEntity)
    ensures args.entity.LegacyGDLauncher? ==> (r.Success? <==> legacyImport(args.index, args.name).Success?)
    ensures r.Success? ==> r.value == legacyImport(args.index, args.name).value
    ensures r.Failure? && args.entity.LegacyGDLauncher? ==>
      r.error == ImporterFailed(legacyImport(args.index, args.name).error)
  {
    match args.entity
    case LegacyGDLauncher => Lift(legacyImport(args.index, args.name))
    case _ => Failure(UnsupportedEntity)
  }

  /** Every source but the legacy launcher is rejected by all three
      endpoints, whatever the importer would have answered. */
  lemma OnlyLegacySupported(entity: FEEntity, index: u32, name: string,
                            legacyScan: Result<(), string>,
                            legacyAvailable: Result<seq<Importer.ImportableInstance>, string>,
                            legacyImport: (u32, string) -> Result<nat, string>)
    requires FEKind(entity) != LegacyKind
    ensures ScanImportableInstances(entity, legacyScan) == Failure(UnsupportedEntity)
    ensures GetImportableInstances(entity, legacyAvailable) == Failure(UnsupportedEntity)
    ensures ImportInstance(FEImportInstance(entity, index, name), legacyImport) == Failure(UnsupportedEntity)
  {
  }
}

=== FILE: reaper.dfy ===
/** Stopping a child process. On Unix it is a SIGTERM; on Windows the
    launcher re-runs itself as a "reaper" that attaches to the child's
    console and closes its window, and reports how far it got through its
    exit code, which `StopProcessWindows` decodes. The console calls and
    `kill` are inputs (their outcomes). */
module Reaper {
  import opened Wrappers

  const SUCCESS: int := 0
  const ATTACH_FAILED: int := 2
  const SET_HANDLER_FAILED: int := 3
  const GET_CONSOLE_WINDOW_FAILED: int := 4
  const CLOSE_WINDOW_FAILED: int := 5

  /** The exit codes the reaper can produce. */
  const ReaperCodes: set<int> := {SUCCESS, ATTACH_FAILED, SET_HANDLER_FAILED, GET_CONSOLE_WINDOW_FAILED, CLOSE_WINDOW_FAILED}

  lemma ExitCodesDistinct()
    ensures |ReaperCodes| == 5
  {
  }

  datatype StopError =
    | KillFailed
    | ReaperNotRun
    | AttachFailed
    | SetHandlerFailed
    | GetConsoleWindowFailed
    | CloseWindowFailed
    | UnexpectedExitCode(code: int)

  /** The process id as passed to `kill`: `pid as i32`, which wraps ids at
      or above 2^31 to negative numbers. */
  function KillTarget(pid: u32): (r: int)
    ensures -0x8000_0000 <= r < 0x8000_0000
    ensures pid < 0x8000_0000 ==> r == pid as int
    ensures pid >= 0x8000_0000 ==> r < 0 && r + 0x1_0000_0000 == pid as int
  {
    if pid < 0x8000_0000 then pid as int else pid as int - 0x1_0000_0000
  }

  /** Unix: send SIGTERM with `kill`, the system call, which answers -1 on
      failure; it is given the pid as cast to `i32`. */
  function StopProcessUnix(pid: u32, kill: int -> int): (r: Outcome<StopError>)
    ensures r.Fail? <==> kill(KillTarget(pid)) == -1
    ensures r.Fail? ==> r.error == KillFailed
    ensures pid < 0x8000_0000 ==> (r.Pass? <==> kill(pid as int) != -1)
  {
    if kill(KillTarget(pid)) == -1 then Fail(KillFailed) else Pass
  }

  datatype ConsoleCall = FreeConsole | AttachConsole | GetConsoleWindow | SetConsoleCtrlHandler | CloseWindow

  /** The order in which the reaper would make every console call. */
  const AllCalls: seq<ConsoleCall> := [FreeConsole, AttachConsole, GetConsoleWindow, SetConsoleCtrlHandler, CloseWindow]

  /** What the console calls return: attaching succeeds, the console has a
      window, the ctrl handler is set, the window closes. */
  datatype ConsoleOutcomes = ConsoleOutcomes(attached: bool, windowFound: bool, handlerSet: bool, windowClosed: bool)

  datatype ReaperRun = ReaperRun(calls: seq<ConsoleCall>, exitCode: int)

  /** The reaper: it makes the calls in order and exits at the first that
      fails, with the code of that failure. */
  function RunReaper(os: ConsoleOutcomes): (r: ReaperRun)
    ensures r.exitCode in ReaperCodes
    ensures 2 <= |r.calls| && r.calls <= AllCalls
    ensures !os.attached ==> r.exitCode == ATTACH_FAILED && |r.calls| == 2
    ensures os.attached && !os.windowFound ==> r.exitCode == GET_CONSOLE_WINDOW_FAILED && |r.calls| == 3
    ensures os.attached && os.windowFound && !os.handlerSet ==>
      r.exitCode == SET_HANDLER_FAILED && |r.calls| == 4
    ensures os.attached && os.windowFound && os.handlerSet ==>
      |r.calls| == 5 && (r.exitCode == SUCCESS <==> os.windowClosed) &&
      (r.exitCode == CLOSE_WINDOW_FAILED <==> !os.windowClosed)
  {
    if !os.attached then ReaperRun(AllCalls[..2], ATTACH_FAILED)
    else if !os.windowFound then ReaperRun(AllCalls[..3], GET_CONSOLE_WINDOW_FAILED)
    else if !os.handlerSet then ReaperRun(AllCalls[..4], SET_HANDLER_FAILED)
    else if os.windowClosed then ReaperRun(AllCalls, SUCCESS)
    else ReaperRun(AllCalls, CLOSE_WINDOW_FAILED)
  }

  /** A failed attach touches neither the window nor the handler; a missing
      window leaves the handler alone; only a set handler lets the window be
      closed. */
  lemma ReaperStopsAtFirstFailure(os: ConsoleOutcomes)
    ensures !os.attached ==>
      GetConsoleWindow !in RunReaper(os).calls && SetConsoleCtrlHandler !in RunReaper(os).calls &&
      CloseWindow !in RunReaper(os).calls
    ensures !os.windowFound ==> SetConsoleCtrlHandler !in RunReaper(os).calls
    ensures CloseWindow in RunReaper(os).calls <==> os.attached && os.windowFound && os.handlerSet
  {
    var calls := RunReaper(os).calls;
    assert calls == AllCalls[..|calls|];
  }

  /** Decoding the reaper's exit code. */
  function DecodeExitCode(code: int): (r: Outcome<StopError>)
    ensures r.Pass? <==> code == SUCCESS
    ensures code == ATTACH_FAILED ==> r == Fail(AttachFailed)
    ensures code == SET_HANDLER_FAILED ==> r == Fail(SetHandlerFailed)
    ensures code == GET_CONSOLE_WINDOW_FAILED ==> r == Fail(GetConsoleWindowFailed)
    ensures code == CLOSE_WINDOW_FAILED ==> r == Fail(CloseWindowFailed)
    ensures code !in ReaperCodes ==> r == Fail(UnexpectedExitCode(code))
  {
    if code == SUCCESS then Pass
    else if code == ATTACH_FAILED then Fail(AttachFailed)
    else if code == SET_HANDLER_FAILED then Fail(SetHandlerFailed)
    else if code == GET_CONSOLE_WINDOW_FAILED then Fail(GetConsoleWindowFailed)
    else if code == CLOSE_WINDOW_FAILED then Fail(CloseWindowFailed)
    else Fail(UnexpectedExitCode(code))
  }

  /** Distinct exit codes decode to distinct results. */
  lemma DecodeIsInjective(a: int, b: int)
    requires DecodeExitCode(a) == DecodeExitCode(b)
    ensures a == b
  {
  }

  /** Windows: `exitCode` is the reaper's exit code, or `None` when the
      reaper could not be started. */
  function StopProcessWindows(exitCode: Option<int>): (r: Outcome<StopError>)
    ensures exitCode.None? ==> r == Fail(ReaperNotRun)
    ensures exitCode.Some? ==> r == DecodeExitCode(exitCode.value)
  {
    match exitCode
    case None => Fail(ReaperNotRun)
    case Some(code) => DecodeExitCode(code)
  }

  /** Encoder and decoder agree: stopping succeeds exactly when the reaper
      got through to a successful CloseWindow, each failure point maps to its
      own error, and an unexpected code never comes from the reaper. */
  lemma StopProcessAgreesWithReaper(os: ConsoleOutcomes)
    ensures var r := StopProcessWindows(Some(RunReaper(os).exitCode));
      && (r.Pass? <==> os.attached && os.windowFound && os.handlerSet && os.windowClosed)
      && (!os.attached ==> r == Fail(AttachFailed))
      && (os.attached && !os.windowFound ==> r == Fail(GetConsoleWindowFailed))
      && (os.attached && os.windowFound && !os.handlerSet ==> r == Fail(SetHandlerFailed))
      && (os.attached && os.windowFound && os.handlerSet && !os.windowClosed ==> r == Fail(CloseWindowFailed))
      && !(r.Fail? && r.error.UnexpectedExitCode?)
  {
  }
}

=== FILE: refresh_service.dfy ===
/** The account refresh service: two background loops over the account
    table, each modelled as one pass. The status-check pass keeps a
    last-checked time per account holding an access token and checks the
    one checked longest ago; the token-refresh pass starts a token refresh
    for the first account (most recently used first) whose token expires
    within twelve hours. Sleeping and the 30-second lockout are not part of
    the model; `now` is a parameter. */
module RefreshService {
  import opened Wrappers
  import opened Accounts

  /** Twelve hours, in seconds. */
  const RefreshMargin: int := 12 * 60 * 60

  /** The uuids of the listed rows that hold an access token. */
  function Tracked(entries: seq<AccountRow>): set<Uuid> {
    set i | 0 <= i < |entries| && entries[i].accessToken.Some? :: entries[i].uuid
  }

  /** The time an account counts as last checked after reconciliation. */
  function LastCheck(times: map<Uuid, int>, uuid: Uuid, now: int): int {
    if uuid in times then times[uuid] else now
  }

  lemma TrackedPrefix(entries: seq<AccountRow>, n: nat)
    requires n < |entries|
    ensures Tracked(entries[..n + 1]) ==
      Tracked(entries[..n]) + (if entries[n].accessToken.Some? then {entries[n].uuid} else {})
  {
    var a := entries[..n + 1];
    var b := entries[..n];
    assert forall i :: 0 <= i < n ==> a[i] == b[i];
    assert a[n] == entries[n];
  }

  /** Reconciliation of the last-checked times with the table: times of
      accounts gone or without an access token are dropped, newly tracked
      accounts start at `now`, surviving times are kept. */
  method Reconcile(times: map<Uuid, int>, entries: seq<AccountRow>, now: int) returns (r: map<Uuid, int>)
    ensures r.Keys == Tracked(entries)
    ensures forall k :: k in r ==> r[k] == LastCheck(times, k, now)
  {
    r := map k | k in times && (exists i :: 0 <= i < |entries| && entries[i].uuid == k && entries[i].accessToken.Some?)
               :: times[k];
    assert r.Keys == times.Keys * Tracked(entries);
    var n := 0;
    while n < |entries|
      invariant 0 <= n <= |entries|
      invariant r.Keys == (times.Keys * Tracked(entries)) + Tracked(entries[..n])
      invariant forall k :: k in r ==> r[k] == LastCheck(times, k, now)
    {
      var row := entries[n];
      TrackedPrefix(entries, n);
      if row.uuid !in r && row.accessToken.Some? {
        r := r[row.uuid := now];
      }
      n := n + 1;
    }
    assert entries[..n] == entries;
  }

  /** Over a full listing, the tracked accounts are exactly the stored
      accounts that hold an access token. */
  lemma TrackedIsStoredWithToken(entries: seq<AccountRow>, store: map<Uuid, AccountRow>)
    requires IsListing(entries, store)
    ensures Tracked(entries) == set k | k in store && store[k].accessToken.Some?
  {
    forall k | k in store && store[k].accessToken.Some?
      ensures k in Tracked(entries)
    {
      var i :| 0 <= i < |entries| && entries[i].uuid == k;
      assert entries[i] == store[k];
    }
  }

  /** The account in `order` that was checked longest ago; among equals the
      first in `order` wins, as `min_by` keeps the first minimum. */
  function LeastRecentlyChecked(times: map<Uuid, int>, order: seq<Uuid>): (r: Option<Uuid>)
    ensures r.None? <==> forall i :: 0 <= i < |order| ==> order[i] !in times
    ensures r.Some? ==> r.value in times && r.value in order
    ensures r.Some? ==> forall i :: 0 <= i < |order| && order[i] in times ==> times[r.value] <= times[order[i]]
    decreases |order|
  {
    if |order| == 0 then None
    else
      var rest := LeastRecentlyChecked(times, order[1..]);
      if order[0] !in times then rest
      else if rest.Some? && times[rest.value] < times[order[0]] then rest
      else Some(order[0])
  }

  function UuidsOf(entries: seq<AccountRow>): (r: seq<Uuid>)
    ensures |r| == |entries| && forall i :: 0 <= i < |r| ==> r[i] == entries[i].uuid
  {
    seq(|entries|, i requires 0 <= i < |entries| => entries[i].uuid)
  }

  /** One pass of the status-check loop: reconcile, pick the account checked
      longest ago (to be passed to `RefreshAccountStatus`) and stamp it. */
  method StatusCheckPass(times: map<Uuid, int>, entries: seq<AccountRow>, now: int)
    returns (next: map<Uuid, int>, checked: Option<Uuid>)
    ensures next.Keys == Tracked(entries)
    ensures checked.None? <==> Tracked(entries) == {}
    ensures checked.Some? ==> checked.value in Tracked(entries) && next[checked.value] == now
    ensures checked.Some? ==>
      forall k :: k in Tracked(entries) ==> LastCheck(times, checked.value, now) <= LastCheck(times, k, now)
    ensures forall k :: k in next && Some(k) != checked ==> next[k] == LastCheck(times, k, now)
  {
    var reconciled := Reconcile(times, entries, now);
    var order := UuidsOf(entries);
    forall k | k in Tracked(entries)
      ensures exists i :: 0 <= i < |order| && order[i] == k && order[i] in reconciled
    {
      var i :| 0 <= i < |entries| && entries[i].accessToken.Some? && entries[i].uuid == k;
      assert order[i] == k;
    }
    checked := LeastRecentlyChecked(reconciled, order);
    next := if checked.Some? then reconciled[checked.value := now] else reconciled;
  }

  /** A row is due for a token refresh when it loads as a Microsoft account
      whose token expires within twelve hours of now. */
  predicate DueForRefresh(row: AccountRow, now: int) {
    && LoadAccount(row).Success?
    && LoadAccount(row).value.kind.Microsoft?
    && LoadAccount(row).value.kind.tokenExpires - RefreshMargin < now
  }

  /** The first due row at or after `from`; badly formed and Offline rows
      are skipped. */
  function FirstDue(entries: seq<AccountRow>, now: int, from: nat): (r: Option<nat>)
    requires from <= |entries|
    ensures r.Some? ==>
      && from <= r.value < |entries|
      && DueForRefresh(entries[r.value], now)
      && forall j :: from <= j < r.value ==> !DueForRefresh(entries[j], now)
    ensures r.None? ==> forall j :: from <= j < |entries| ==> !DueForRefresh(entries[j], now)
    decreases |entries| - from
  {
    if from == |entries| then None
    else if DueForRefresh(entries[from], now) then Some(from)
    else FirstDue(entries, now, from + 1)
  }

  /** One pass of the token-refresh loop: at most one refresh is attempted,
      for the first due row, and the pass stops whatever its outcome. */
  function TokenRefreshPass(s: AccountState, entries: seq<AccountRow>, now: int): (r: Step)
    ensures r.next.store == s.store && r.next.active == s.active && r.next.enrollment == s.enrollment
    ensures (forall i :: 0 <= i < |entries| ==> !DueForRefresh(entries[i], now)) ==> r == Step(s, Pass)
    ensures r.next.refreshing != s.refreshing ==>
      exists i :: 0 <= i < |entries| && DueForRefresh(entries[i], now) &&
        r.next.refreshing.Keys == s.refreshing.Keys + {entries[i].uuid}
  {
    match FirstDue(entries, now, 0)
    case None => Step(s, Pass)
    case Some(i) => RefreshAccount(s, entries[i].uuid)
  }

  /** Over a full listing, a refresh started by the pass is for a stored
      account whose token expires within twelve hours. */
  lemma RefreshOnlyWhenDue(s: AccountState, entries: seq<AccountRow>, now: int, uuid: Uuid)
    requires IsListing(entries, s.store)
    requires uuid in TokenRefreshPass(s, entries, now).next.refreshing && uuid !in s.refreshing
    ensures uuid in s.store && DueForRefresh(s.store[uuid], now)
    ensures s.store[uuid].tokenExpires.value - RefreshMargin < now
  {
    var r := TokenRefreshPass(s, entries, now);
    var i :| 0 <= i < |entries| && DueForRefresh(entries[i], now) &&
      r.next.refreshing.Keys == s.refreshing.Keys + {entries[i].uuid};
    assert uuid == entries[i].uuid;
  }

  /** Over a full listing, the pass attempts the refresh of the first due
      row: when that account holds a refresh token and is not refreshing
      already, its refresh is started with its loaded snapshot. */
  lemma FirstDueIsRefreshed(s: AccountState, entries: seq<AccountRow>, now: int)
    requires IsListing(entries, s.store)
    requires FirstDue(entries, now, 0).Some?
    requires entries[FirstDue(entries, now, 0).value].msRefreshToken.Some?
    requires entries[FirstDue(entries, now, 0).value].uuid !in s.refreshing
    ensures var row := entries[FirstDue(entries, now, 0).value];
      var r := TokenRefreshPass(s, entries, now);
      && r.outcome.Pass?
      && r.next.refreshing == s.refreshing[row.uuid := LoadAccount(row).value]
  {
  }

  /** The pass stops at the first due row whatever happens to it: when that
      account has no refresh token or is refreshing already, the pass fails
      and nothing changes, even if later rows are due. */
  lemma FirstDueBlocks(s: AccountState, entries: seq<AccountRow>, now: int)
    requires IsListing(entries, s.store)
    requires FirstDue(entries, now, 0).Some?
    requires var row := entries[FirstDue(entries, now, 0).value];
      row.msRefreshToken.None? || row.uuid in s.refreshing
    ensures TokenRefreshPass(s, entries, now).next == s
    ensures TokenRefreshPass(s, entries, now).outcome.Fail?
  {
  }

  /** A Microsoft row that has lost its refresh token (an account needing a
      new login) and is past its expiry stays due on every pass. Listed
      ahead of a refreshable due account, it makes every pass end with
      NoRefreshToken, and the refreshable account is never refreshed: the
      table below stalls at every time past both expiries. */
  lemma InvalidRowStallsRefresh(now: int)
    requires now > -RefreshMargin
    ensures
      var a := AccountRow("a", "alice", Some("tokA"), None, None, Some(0), None, 2);
      var b := AccountRow("b", "bob", Some("tokB"), Some("refreshB"), Some("idB"), Some(0), None, 1);
      var s := AccountState(map["a" := a, "b" := b], None, map[], None);
      && IsListing([a, b], s.store)
      && DueForRefresh(b, now) && b.msRefreshToken.Some? && b.uuid !in s.refreshing
      && TokenRefreshPass(s, [a, b], now) == Step(s, Fail(NoRefreshToken))
  {
    var a := AccountRow("a", "alice", Some("tokA"), None, None, Some(0), None, 2);
    var b := AccountRow("b", "bob", Some("tokB"), Some("refreshB"), Some("idB"), Some(0), None, 1);
    var entries := [a, b];
    var store := map["a" := a, "b" := b];
    assert entries[0].uuid == "a" && entries[1].uuid == "b";
    forall k | k in store
      ensures exists i :: 0 <= i < |entries| && entries[i].uuid == k
    {
      if k == "a" { assert entries[0].uuid == k; } else { assert entries[1].uuid == k; }
    }
    assert DueForRefresh(a, now);
    assert FirstDue(entries, now, 0) == Some(0);
  }

  /** A due row the pass can act on: it holds a refresh token. */
  predicate Refreshable(row: AccountRow, now: int) {
    DueForRefresh(row, now) && row.msRefreshToken.Some?
  }

  /** The first refreshable row at or after `from`. */
  function FirstRefreshable(entries: seq<AccountRow>, now: int, from: nat): (r: Option<nat>)
    requires from <= |entries|
    ensures r.Some? ==>
      && from <= r.value < |entries|
      && Refreshable(entries[r.value], now)
      && forall j :: from <= j < r.value ==> !Refreshable(entries[j], now)
    ensures r.None? ==> forall j :: from <= j < |entries| ==> !Refreshable(entries[j], now)
    decreases |entries| - from
  {
    if from == |entries| then None
    else if Refreshable(entries[from], now) then Some(from)
    else FirstRefreshable(entries, now, from + 1)
  }

  /** The pass as intended: rows that cannot be refreshed for want of a
      refresh token are skipped, and the first due row that holds one is
      refreshed. */
  function TokenRefreshPassFixed(s: AccountState, entries: seq<AccountRow>, now: int): (r: Step)
    ensures r.next.store == s.store && r.next.active == s.active && r.next.enrollment == s.enrollment
    ensures (forall i :: 0 <= i < |entries| ==> !Refreshable(entries[i], now)) ==> r == Step(s, Pass)
    ensures r.next.refreshing != s.refreshing ==>
      exists i :: 0 <= i < |entries| && Refreshable(entries[i], now) &&
        r.next.refreshing.Keys == s.refreshing.Keys + {entries[i].uuid}
  {
    match FirstRefreshable(entries, now, 0)
    case None => Step(s, Pass)
    case Some(i) => RefreshAccount(s, entries[i].uuid)
  }

  /** Over a full listing, whenever some due account holds a refresh token
      and no such account is refreshing already, the corrected pass starts a
      refresh, for the first of them: an account needing a new login can no
      longer hold the others back. */
  lemma FixedPassRefreshesWhenPossible(s: AccountState, entries: seq<AccountRow>, now: int)
    requires IsListing(entries, s.store)
    requires exists i :: 0 <= i < |entries| && Refreshable(entries[i], now)
    requires forall i :: 0 <= i < |entries| && Refreshable(entries[i], now) ==> entries[i].uuid !in s.refreshing
    ensures var r := TokenRefreshPassFixed(s, entries, now);
      && r.outcome.Pass?
      && exists i :: 0 <= i < |entries| && Refreshable(entries[i], now) &&
           (forall j :: 0 <= j < i ==> !Refreshable(entries[j], now)) &&
           r.next.refreshing == s.refreshing[entries[i].uuid := LoadAccount(entries[i]).value]
  {
    var i := FirstRefreshable(entries, now, 0).value;
    assert entries[i].uuid in s.store && s.store[entries[i].uuid] == entries[i];
  }

  /** On the stalled table, the corrected pass refreshes the account that
      the pass as written never reaches. */
  lemma FixedPassUnstalls()
    ensures
      var a := AccountRow("a", "alice", Some("tokA"), None, None, Some(0), None, 2);
      var b := AccountRow("b", "bob", Some("tokB"), Some("refreshB"), Some("idB"), Some(0), None, 1);
      var s := AccountState(map["a" := a, "b" := b], None, map[], None);
      var r := TokenRefreshPassFixed(s, [a, b], 100);
      r.outcome.Pass? && "b" in r.next.refreshing
  {
    var a := AccountRow("a", "alice", Some("tokA"), None, None, Some(0), None, 2);
    var b := AccountRow("b", "bob", Some("tokB"), Some("refreshB"), Some("idB"), Some(0), None, 1);
    assert !Refreshable(a, 100);
    assert Refreshable(b, 100);
    assert FirstRefreshable([a, b], 100, 0) == Some(1);
  }
}

=== FILE: wrappers.dfy ===
/** Failure-carrying datatypes shared by the modules of this model:
    `Option` for Rust's `Option`, `Result` for `Result<T, E>` and
    `Outcome` for `Result<(), E>`. */
module Wrappers {

  datatype Option<+T> = None | Some(value: T) {
    function UnwrapOr(default: T): T {
      if Some? then value else default
    }
  }

  datatype Result<+T, +E> = Success(value: T) | Failure(error: E)

  datatype Outcome<+E> = Pass | Fail(error: E)

  /** Rust's `u32`. */
  newtype u32 = x: int | 0 <= x < 0x1_0000_0000
}
